=== FILE: README.md ===
# Parameterized attribute semantics, modelled in Dafny

This project models the attribute system of `param`'s `Parameterized`
classes as its unit tests in `tests/API0/testparameterizedobject.py` pin it
down. A class declares parameters. Each parameter carries a default and the
flags `constant`, `readonly`, `instantiate` and `allow_None`, with optional
numeric bounds. Instances read and write those parameters through a
protocol that copies or shares defaults, validates values and resolves value
providers. On top of that protocol sit override views (`ParamOverrides`),
parameterized functions, `shared_parameters` scopes and the per-instance
`state_push` / `state_pop` stack.

The model is a functional state machine. A `World` holds the class
declarations, an explicit heap, the registry of cached `params()` mappings
and the stack of shared-default pools. Object identity (`is`) is a heap
reference `Ref`. The tests compare lists of numbers with `==`; the model
states such comparisons with `SameContents`, which holds when two values are
identical or when their references lead to objects holding the same
contents, compared one level deep. Every operation is a pure
function of the world, and every fallible one returns a `Result`. The error kinds are `TypeError`,
`ValueError`, `AttributeError`, `KeyError` and `IndexError`, and a failed
operation leaves the world as it was.

Modules, one per file:

- `outcomes.dfy`, `Outcomes`: `Option`, `Result` and the error kinds.
- `values.dfy`, `Values`: references, values, heap objects and value
  providers. A provider is a non-empty script of numbers read cyclically.
  The module also holds bounds.
- `specs.dfy`, `Specs`: parameter kinds, specs, their normalization
  (`readonly` forces `constant` and turns `instantiate` off; a `None`
  default allows `None`), and what a write accepts.
- `classes.dfy`, `Classes`: the class hierarchy and the root-to-leaf
  aggregation of declarations, with `instantiate` sticky along the chain.
- `worlds.dfy`, `Worlds`: the world, its well-formedness (no dangling
  reference anywhere), class registration, the cached `params()` lookup and
  sharing scopes.
- `attributes.dfy`, `Attributes`: construction, reads, `inspect_value`,
  instance and class writes, and item assignment on lists.
- `snapshots.dfy`, `Snapshots`: `state_push` / `state_pop`.
- `overrides.dfy`, `Overrides`: override views and calls of parameterized
  functions, on the class and on the singleton instance.
- `behaviour.dfy`, `Behaviour`: lemmas grouped by test. Each is stated for
  every class and parameter of the shape the test uses, not only for its
  literal classes.

Two choices shape construction:

- `instantiate=True` declared by any ancestor is always inherited: every
  writable redeclaration below it reports and performs instantiation,
  even one that says `instantiate=False` (`MyTestParamInstantiation` at
  lines 35-36, checked at lines 103-107). A read-only declaration
  reports `instantiate=False` for its own class's entry (lines 67-69) and
  for subclasses that inherit it without redeclaring, but it does not cut
  off the ancestor's flag for a writable redeclaration further down. So a
  class's aggregated flag is the OR over every declaration on its chain,
  unless its own nearest declaration is read-only.
- An instantiated object default is copied one level, as `copy.copy`
  would: the new instance gets a fresh reference to an object with the
  same contents, and the objects that copy holds stay shared. The tests
  do not tell a one-level copy from a deep one (see "Left out").

## Model

| member | source | states |
|---|---|---|
| Specs.Normalize | tests/API0/testparameterizedobject.py:20-21 | a read-only parameter is constant and never instantiated; a `None` default allows `None`; every other flag is kept as declared |
| Specs.NormalizeIdempotent | tests/API0/testparameterizedobject.py:20-21 | normalizing twice is normalizing once, and a declaration is left alone exactly when it is already normalized |
| Specs.ClassWriteDropsConstant | tests/API0/testparameterizedobject.py:41-64 | whatever a write on an instance accepts, the same write on the class accepts; the two answers differ exactly for a constant, writable parameter; a read-only parameter is rejected with `TypeError` on both |
| Classes.AggregateKeys | tests/API0/testparameterizedobject.py:116-128 | a class has a parameter exactly when the class or one of its ancestors declares it, and exactly when a nearest declarer exists |
| Classes.AggregateNearest | tests/API0/testparameterizedobject.py:35-36 | the aggregated spec is the nearest declaration field for field, except that `instantiate` may only have been turned on |
| Classes.AggregateNormalized | tests/API0/testparameterizedobject.py:67-69 | every aggregated spec is normalized, so read-only parameters report `constant` and not `instantiate` |
| Classes.InstantiateSticky | tests/API0/testparameterizedobject.py:103-107 | `instantiate=True` declared by an ancestor holds in every subclass whose nearest declaration is writable, even one redeclaring it with `instantiate=False` and even below a read-only redeclaration |
| Classes.InstantiateOrigin | tests/API0/testparameterizedobject.py:103-107 | conversely, an aggregated `instantiate=True` was declared by the class or an ancestor, and the class's nearest declaration is writable |
| Classes.AggregateInherited | tests/API0/testparameterizedobject.py:122-128 | a subclass's parameters include all of every ancestor's and all it declares itself |
| Worlds.RegisterClass | tests/API0/testparameterizedobject.py:110-113 | a new class gets a fresh id, declares exactly the given names, each normalized, and its own `abstract` flag; no earlier class changes, nor its parameters |
| Worlds.Params | tests/API0/testparameterizedobject.py:116-131 | `params()` answers the class's aggregated mapping, registered under one object identity; once registered, the world is left alone |
| Worlds.ParamsCached | tests/API0/testparameterizedobject.py:130-131 | a second `params()` query of a class answers the identical mapping and leaves the world as the first query left it |
| Worlds.EnterExit | tests/API0/testparameterizedobject.py:267-272 | leaving a sharing scope right after entering it restores the world |
| Attributes.Construct | tests/API0/testparameterizedobject.py:41-58 | construction raises `AttributeError` for an unknown keyword, `TypeError` for a read-only one, `ValueError` exactly when a keyword is not admitted, and otherwise builds an instance as `Built` describes |
| Attributes.ConstructedValue | tests/API0/testparameterizedobject.py:73-85 | a new instance holds each keyword as given; a non-instantiated default shared; a pooled object inside a scope; otherwise a fresh reference to a copy of the default's contents |
| Attributes.PooledAfter | tests/API0/testparameterizedobject.py:265-280 | inside a scope, the pool stack a construction leaves holds in its innermost pool the object the next instance of the class reuses: the pooled one, or the fresh copy just made |
| Attributes.Get | tests/API0/testparameterizedobject.py:134-139 | a read answers `AttributeError` exactly for unknown names and the stored value when no provider is involved; a provider is resolved and advanced, and its value is bounds-checked only now (`ValueError` when outside) |
| Attributes.SetInstance | tests/API0/testparameterizedobject.py:45 | an instance write fails exactly as `WriteError` says; a successful one makes the parameter hold the value, keeps every other parameter and every other object |
| Attributes.SetClass | tests/API0/testparameterizedobject.py:47-50 | a class write fails exactly as `WriteError` says for a class target; a successful one changes that one default of that class, no other class's declarations, no object, and no ancestor's parameters |
| Attributes.ListSetItem | tests/API0/testparameterizedobject.py:81-82 | `lst[i] = x` replaces exactly one item, with Python's negative indices, raises `IndexError` out of range, and changes no other object |
| Snapshots.StatePush | tests/API0/testparameterizedobject.py:140 | `state_push` appends the instance's current values and last produced values to its stack and changes nothing else |
| Snapshots.StatePop | tests/API0/testparameterizedobject.py:143 | `state_pop` restores the top saved values and removes them from the stack, changing no other object |
| Snapshots.PushPopRoundTrip | tests/API0/testparameterizedobject.py:140-144 | push, then reads and writes that leave the stack alone, then pop, give back the instance exactly, and every `inspect_value` with it |
| Snapshots.NestedRoundTrip | tests/API0/testparameterizedobject.py:140-144 | two nested push/pop pairs unwind in order |
| Overrides.Lookup | tests/API0/testparameterizedobject.py:250-262 | an override view answers the override when present, else the instance's read; `AttributeError` exactly when the key is in neither |
| Overrides.ReadAll | tests/API0/testparameterizedobject.py:155-160 | reading names in turn through a view answers each override as given and each other plain name with what the instance held before the call |
| Overrides.ReadAllPlain | tests/API0/testparameterizedobject.py:155-160 | reading names through a view succeeds when every name is an override or a stored value needing no resolution, and fails with `AttributeError` only because of some name that is neither |
| Overrides.CallInstance | tests/API0/testparameterizedobject.py:178-179 | a call on the singleton never changes its stored values, answers keywords as given, and succeeds when every name answers without resolving |
| Overrides.CallClass | tests/API0/testparameterizedobject.py:175-176 | a call on the class answers its keywords as given, never changes the class declarations, and keeps every object that existed before, providers moving on only |
| Overrides.CallClassValues | tests/API0/testparameterizedobject.py:166-169 | outside a scope a class call succeeds whatever its keywords, answers them as given, and answers each name they leave out with its default: the default itself when not instantiated, an equal copy when it is |
| Overrides.InstanceCallValues | tests/API0/testparameterizedobject.py:166-169 | a call on an instance whose names need no resolving answers the values it holds, and leaves it holding them |
| Behaviour.ConstantParameter | tests/API0/testparameterizedobject.py:41-50 | a constant given at construction is kept, an instance write raises `TypeError`, a class write succeeds and a new instance reads the new default |
| Behaviour.ClassSetSeenByNewInstances | tests/API0/testparameterizedobject.py:47-50 | after a successful class write, a new instance of that class reads the new default |
| Behaviour.ReadonlyParameter | tests/API0/testparameterizedobject.py:52-66 | a read-only parameter is readable but rejected with `TypeError` as a keyword, on the instance and on the class |
| Behaviour.ReadonlyIgnoresInstantiate | tests/API0/testparameterizedobject.py:67-69 | a read-only redeclaration reports `constant` and not `instantiate`, even when declared `instantiate=True` and inherited from an instantiating parent |
| Behaviour.InstanceReadsClassDefault | tests/API0/testparameterizedobject.py:76-79 | on any instance a construction without keywords builds, a parameter read on the instance has the same contents as the same parameter read on the class, and is the class's value itself when not instantiated |
| Behaviour.InstantiatedIsCopied | tests/API0/testparameterizedobject.py:73-85 | on any instance a construction without keywords builds, an instantiated list parameter holds a different list with equal contents, untouched when the class's list is later mutated |
| Behaviour.ListWriteKeepsInstance | tests/API0/testparameterizedobject.py:97-100 | writing an item of a list changes no instance's parameters, and a parameter holding that list reads the list as now written |
| Behaviour.SharedDefaultIsAliased | tests/API0/testparameterizedobject.py:73-85 | on any instance a construction without keywords builds, a non-instantiated list parameter is the class's list itself, so its mutation is visible through the instance |
| Behaviour.CopyKeepsSharedParameter | tests/API0/testparameterizedobject.py:88-100 | the copy of an object default that a new instance reads is a new object, and for its own non-instantiated list parameter it reads the very list its class declares, not a copy |
| Behaviour.InstantiationInheritance | tests/API0/testparameterizedobject.py:103-107 | a subclass redeclaring with `instantiate=False` still reports and performs instantiation: any instance a construction of it builds holds a copy, of the same class, of the object default |
| Behaviour.AbstractOnlyWhereDeclared | tests/API0/testparameterizedobject.py:110-113 | a class declared abstract is abstract and its subclass is not |
| Behaviour.ParamsAfterSuperclassQueried | tests/API0/testparameterizedobject.py:116-128 | querying a superclass first does not hide any of the subclass's parameters from a later query |
| Behaviour.ParamsIdentity | tests/API0/testparameterizedobject.py:130-131 | the mapping a class hands out is the identical object a new instance of it hands out |
| Behaviour.StateSaving | tests/API0/testparameterizedobject.py:134-144 | reads of a provider-backed parameter give the script's consecutive values; after push and one more read, pop restores the `inspect_value` seen before the push |
| Behaviour.DynamicRead | tests/API0/testparameterizedobject.py:138-141 | reading a dynamic parameter backed by a provider answers the provider's next value, which `inspect_value` then reports, and advances the provider, keeping the stored reference |
| Behaviour.FunctionOverridesOnce | tests/API0/testparameterizedobject.py:166-169 | on the class, every call of any run of calls with or without the keyword succeeds and answers the starting defaults except where its own keyword wins, so a keyword lasts for its call only |
| Behaviour.FunctionAfterClassSet | tests/API0/testparameterizedobject.py:171-173 | a class write succeeds and changes only that default; afterwards, in any run of calls, a keyword still wins for its call and every other call answers the new default |
| Behaviour.InstanceOverridesOnce | tests/API0/testparameterizedobject.py:166-169 | the same on the singleton instance: in any run of calls, each answers what the instance held at the start except where its own keyword wins |
| Behaviour.InstanceAfterSet | tests/API0/testparameterizedobject.py:171-173 | an instance write succeeds; afterwards, in any run of calls, a keyword still wins for its call and every other call answers the new value, other names keeping theirs |
| Behaviour.NumberBoundsCheckedOnSet | tests/API0/testparameterizedobject.py:195-203 | writing a number to a numeric parameter raises `ValueError` exactly when it is out of bounds; otherwise it reads back |
| Behaviour.OutsideClosedBounds | tests/API0/testparameterizedobject.py:191-203 | for a number declared with `bounds=(-1,1)`, writing 10 raises `ValueError`, and a write is rejected exactly when the number lies outside [-1, 1] |
| Behaviour.ProviderBoundsDeferred | tests/API0/testparameterizedobject.py:205-214 | writing a provider to a bounded numeric parameter succeeds; the next read raises `ValueError` exactly when the produced value is out of bounds |
| Behaviour.NoneHandling | tests/API0/testparameterizedobject.py:229-235 | writing `None` succeeds exactly when the parameter allows `None`, else raises `ValueError` |
| Behaviour.NoneDefault | tests/API0/testparameterizedobject.py:225-237 | a parameter declared with a `None` default allows `None`, and any instance a construction builds reads `None` |
| Behaviour.OverrideView | tests/API0/testparameterizedobject.py:243-262 | on an instance built with keywords: the instance reads them back; a view answers the override, the instance's value for another name, and `AttributeError` for an unknown one |
| Behaviour.SharedPair | tests/API0/testparameterizedobject.py:268-280 | two constructions in a scope without a pooled object hold the one fresh copy the first made, which is not the class default |
| Behaviour.UnsharedCopy | tests/API0/testparameterizedobject.py:73-79 | outside every scope a new instance reads a copy of an instantiated object default: an object the world did not have, not the default, holding the default's contents |
| Behaviour.UnsharedPair | tests/API0/testparameterizedobject.py:265-280 | outside every scope two instances built one after the other hold two distinct copies, neither of them the class default |
| Behaviour.SharedParameters | tests/API0/testparameterizedobject.py:265-280 | inside `shared_parameters` two instances hold the identical instantiated object, which is not the class default; leaving the scope restores unpooled construction |

## Left out

- The `pickle` round trip of the singleton (lines 181-186) is not modelled. It is byte-level persistence through a library outside this model.
- The concrete generators `numbergen.UniformRandom` and `SomeRandomNumbers`, and the `_Dynamic_time_fn` time dependence, are not modelled. A provider is an opaque cyclic script of numbers, so "consecutive reads differ" holds exactly when consecutive script entries differ.
- Floating-point numbers are not modelled: numbers and bounds are exact reals (`0.3` is exact).
- Python's descriptor and metaclass machinery is not modelled, nor name-mangled `__abstract`, `print_level`, logging or `allow_extra_keywords` warnings. `abstract` is an explicit flag given at registration.
- The base class `Parameterized` with its built-in `name` and `print_level` parameters is not pre-registered. Any root class plays its part, and the exact count of its parameters (line 123) is not stated.
- Multiple inheritance is not modelled: a class has at most one parent.
- Attributes.Construct: an unknown keyword raises `AttributeError`. The library instead sets a plain attribute with a warning, and nothing here observes that attribute.
- Attributes.SetInstance: an unknown name raises `AttributeError`, whereas Python would create a plain attribute.
- Attributes.SetClass: an unknown name raises `AttributeError`, whereas Python would create a plain class attribute.
- Attributes.GetClass: reading a provider-backed parameter on the class answers the provider unresolved.
- Attributes.Construct: an instantiated object default is copied one level, and the objects the copy holds stay shared with the default. A deep copy would copy those too. No test reads an object the copy stores.
- Attributes.Get: a read whose produced value is out of bounds fails with `ValueError` and leaves the world as it was, so the provider does not consume that value and the instance does not record it. In the library the generator has already moved on.
- Attributes.Construct: instantiated defaults are copied eagerly at construction, not on first access. No test can tell the two apart, because a copy is made before anyone can observe the instance.
- Attributes.Construct: the pool key is the class of the instance being built together with the parameter name.
- Snapshots.StatePop: popping an empty stack is excluded by a precondition rather than modelled as an error.
- Snapshots.StatePush: providers are not pushed themselves. Their position is never rewound, and only the references and the last produced values are saved and restored.
- Worlds.ExitShared: leaving a scope requires one to be open.
- Thread safety of sharing scopes is not modelled.
- Overrides.CallClass: the instance a class call uses is built with the class defaults and read through a view holding the keywords. The state the call leaves behind is not described beyond the kept objects and unchanged declarations.
- Overrides.CallClassValues: covers calls outside a sharing scope whose named parameters need no provider resolution, as with `some_fn`'s numbers and list.
- Behaviour.FunctionOverridesOnce: covers the same calls, each with no keyword or with one fixed keyword `n`.
- Behaviour.InstanceOverridesOnce: covers calls each with no keyword or with one fixed keyword `n`, on names needing no resolution.

=== FILE: attributes.dfy ===
/** The instance attribute protocol: construction, reads and writes on
    instances and classes, and mutation of list objects. */
module Attributes {
  import opened Outcomes
  import opened Values
  import opened Specs
  import opened Classes
  import opened Worlds

  /** Names whose defaults an instance of a class with `specs` copies. */
  function InstNames(specs: map<string, ParamSpec>): set<string> {
    set n | n in specs && specs[n].instantiate
  }

  predicate Pooling(w: World) {
    |w.pools| > 0
  }

  function TopPool(w: World): Pool
    requires Pooling(w)
  {
    w.pools[|w.pools| - 1]
  }

  predicate Pooled(w: World, c: ClassId, n: string) {
    Pooling(w) && PoolKey(c, n) in TopPool(w)
  }

  /** `copy.copy` of a default: a reference gets a new identity holding the
      same object (a shallow copy); numbers, strings and `None` are values. */
  function ShallowCopy(h: Heap, v: Value, target: Ref): (c: Value)
    ensures v.VRef? && v.r in h ==> c == VRef(target)
    ensures !(v.VRef? && v.r in h) ==> c == v
  {
    if v.VRef? && v.r in h then VRef(target) else v
  }

  /** The value instance number `k` of class `c` receives for the
      instantiated parameter `n`: the pooled object inside a sharing scope
      that already has one, else a fresh copy of the default. */
  function InstValue(w: World, c: ClassId, specs: map<string, ParamSpec>, k: nat, n: string): Value
    requires n in specs
  {
    if Pooled(w, c, n) then TopPool(w)[PoolKey(c, n)]
    else ShallowCopy(w.heap, specs[n].default, Ref(k, Some(n)))
  }

  predicate NeedsCopy(w: World, c: ClassId, specs: map<string, ParamSpec>, n: string) {
    && n in specs && specs[n].instantiate && !Pooled(w, c, n)
    && specs[n].default.VRef? && specs[n].default.r in w.heap
  }

  /** The keyword arguments that name read-only parameters, or fail validation. */
  predicate SomeReadonly(specs: map<string, ParamSpec>, kwargs: map<string, Value>) {
    exists n :: n in kwargs && n in specs && specs[n].readonly
  }

  predicate SomeInvalid(specs: map<string, ParamSpec>, h: Heap, kwargs: map<string, Value>) {
    exists n :: n in kwargs && n in specs && !Admits(specs[n], h, kwargs[n])
  }

  /** Building an instance of `c`: instantiated defaults are copied (or
      taken from the active pool), then the keyword arguments are assigned;
      constant parameters may be given here, read-only ones may not. */
  function Construct(w: World, c: ClassId, kwargs: map<string, Value>): (res: Result<Made>)
    requires WF(w) && c in w.classes && LiveArgs(w, kwargs)
    ensures !(kwargs.Keys <= ParamsOfClass(w, c).Keys) ==> res == Err(AttributeError)
    ensures kwargs.Keys <= ParamsOfClass(w, c).Keys && SomeReadonly(ParamsOfClass(w, c), kwargs) ==> res == Err(TypeError)
    ensures kwargs.Keys <= ParamsOfClass(w, c).Keys && !SomeReadonly(ParamsOfClass(w, c), kwargs) ==>
      (res.Err? <==> SomeInvalid(ParamsOfClass(w, c), w.heap, kwargs)) && (res.Err? ==> res.error == ValueError)
    ensures res.Ok? ==> Built(w, c, kwargs, res.value)
  {
    var specs := ParamsOfClass(w, c);
    if !(kwargs.Keys <= specs.Keys) then Err(AttributeError)
    else if SomeReadonly(specs, kwargs) then Err(TypeError)
    else if SomeInvalid(specs, w.heap, kwargs) then Err(ValueError)
    else Ok(Build(w, c, kwargs))
  }

  predicate LiveArgs(w: World, kwargs: map<string, Value>) {
    forall n :: n in kwargs ==> Live(w.heap, kwargs[n])
  }

  /** What a successful construction guarantees. */
  ghost predicate Built(w: World, c: ClassId, kwargs: map<string, Value>, m: Made)
    requires WF(w) && c in w.classes
  {
    && BuiltShape(w, c, kwargs, m)
    && BuiltValues(w, c, kwargs, m)
    && PoolsAfter(w.pools, c, ParamsOfClass(w, c), Copied(w, c, ParamsOfClass(w, c)), m.w.pools)
  }

  /** A new instance of `c` under a fresh identity; nothing else changed. */
  ghost predicate BuiltShape(w: World, c: ClassId, kwargs: map<string, Value>, m: Made)
    requires WF(w) && c in w.classes
  {
    && WF(m.w) && m.obj == Ref(w.next, None) && m.obj !in w.heap && IsInstance(m.w, m.obj)
    && m.w.heap[m.obj] == Inst(c, m.w.heap[m.obj].vals, map[], [])
    && m.w.classes == w.classes && m.w.registry == w.registry
    && Extends(w.heap, m.w.heap)
    && m.w.heap[m.obj].vals.Keys == kwargs.Keys + InstNames(ParamsOfClass(w, c))
  }

  /** The values the new instance holds. */
  ghost predicate BuiltValues(w: World, c: ClassId, kwargs: map<string, Value>, m: Made)
    requires WF(w) && c in w.classes
    requires BuiltShape(w, c, kwargs, m)
  {
    var specs := ParamsOfClass(w, c);
    var vals := m.w.heap[m.obj].vals;
    // keyword arguments are stored as given
    && (forall n :: n in kwargs ==> vals[n] == kwargs[n])
    // instantiated parameters get a new object with the default's contents
    && (forall n :: NeedsCopy(w, c, specs, n) ==>
          Ref(w.next, Some(n)) in m.w.heap && Ref(w.next, Some(n)) !in w.heap
          && m.w.heap[Ref(w.next, Some(n))] == w.heap[specs[n].default.r])
    && (forall n :: n !in kwargs && NeedsCopy(w, c, specs, n) ==> vals[n] == VRef(Ref(w.next, Some(n))))
    // inside a sharing scope, a pooled object is reused by identity
    && (forall n :: n in specs && n !in kwargs && specs[n].instantiate && Pooled(w, c, n) ==>
          vals[n] == TopPool(w)[PoolKey(c, n)])
    // a default that is not a heap object is used as it is
    && (forall n :: n in specs && n !in kwargs && specs[n].instantiate && !Pooled(w, c, n) && !NeedsCopy(w, c, specs, n) ==>
          vals[n] == specs[n].default)
  }

  /** Pools after a construction: the enclosing scopes are untouched and
      the innermost one keeps its entries and gains one for each
      instantiated parameter of the class it lacked, holding the object
      the construction made for it (`made`, before keyword arguments). */
  ghost predicate PoolsAfter(ps: seq<Pool>, c: ClassId, specs: map<string, ParamSpec>, made: map<string, Value>, ps': seq<Pool>) {
    && |ps'| == |ps|
    && (|ps| > 0 ==>
          && ps'[..|ps| - 1] == ps[..|ps| - 1]
          && PoolGrows(ps[|ps| - 1], ps'[|ps| - 1])
          && (forall n :: n in InstNames(specs) ==> PoolKey(c, n) in ps'[|ps| - 1])
          && (forall n :: n in InstNames(specs) && PoolKey(c, n) !in ps[|ps| - 1] ==>
                n in made && ps'[|ps| - 1][PoolKey(c, n)] == made[n])
          && (forall key :: key in ps'[|ps| - 1] && key !in ps[|ps| - 1] ==> key.cls == c && key.name in InstNames(specs)))
    && (|ps| == 0 ==> ps' == ps)
  }

  ghost predicate PoolGrows(p: Pool, p': Pool) {
    forall key :: key in p ==> key in p' && p'[key] == p[key]
  }

  /** The pool stack after a construction. */
  function PoolsWith(w: World, c: ClassId, specs: map<string, ParamSpec>): (ps: seq<Pool>)
    ensures PoolsAfter(w.pools, c, specs, Copied(w, c, specs), ps)
  {
    if Pooling(w) then
      var added := map n | n in InstNames(specs) && !Pooled(w, c, n) :: PoolKey(c, n) := InstValue(w, c, specs, w.next, n);
      var top := TopPool(w) + added;
      var ps := w.pools[|w.pools| - 1 := top];
      assert ps[..|w.pools| - 1] == w.pools[..|w.pools| - 1];
      assert ps[|ps| - 1] == top;
      assert forall n :: n in InstNames(specs) ==> PoolKey(c, n) in top by {
        forall n | n in InstNames(specs) ensures PoolKey(c, n) in top {
          if !Pooled(w, c, n) {
            assert PoolKey(c, n) in added;
          }
        }
      }
      ps
    else w.pools
  }

  /** The heap objects a construction allocates: one shallow copy per
      instantiated default that is a heap object and not pooled. */
  function Copies(w: World, c: ClassId, specs: map<string, ParamSpec>): (m: map<Ref, Obj>)
    ensures forall r :: r in m ==> r.serial == w.next && r.slot.Some?
    ensures forall n :: NeedsCopy(w, c, specs, n) ==> Ref(w.next, Some(n)) in m && m[Ref(w.next, Some(n))] == w.heap[specs[n].default.r]
  {
    map n | n in InstNames(specs) && NeedsCopy(w, c, specs, n) :: Ref(w.next, Some(n)) := w.heap[specs[n].default.r]
  }

  /** The values a new instance holds before its keyword arguments. */
  function Copied(w: World, c: ClassId, specs: map<string, ParamSpec>): (m: map<string, Value>)
    ensures m.Keys == InstNames(specs)
    ensures forall n :: n in m ==> m[n] == InstValue(w, c, specs, w.next, n)
  {
    map n | n in InstNames(specs) :: InstValue(w, c, specs, w.next, n)
  }

  function Build(w: World, c: ClassId, kwargs: map<string, Value>): (m: Made)
    requires WF(w) && c in w.classes && LiveArgs(w, kwargs)
    requires kwargs.Keys <= ParamsOfClass(w, c).Keys
    ensures Built(w, c, kwargs, m)
  {
    var specs := ParamsOfClass(w, c);
    var me := Ref(w.next, None);
    var vals := Copied(w, c, specs) + kwargs;
    var heap := w.heap + Copies(w, c, specs) + map[me := Inst(c, vals, map[], [])];
    var m := Made(World(w.classes, heap, w.next + 1, w.registry, PoolsWith(w, c, specs)), me);
    BuildBuilt(w, c, kwargs, specs, vals, m);
    m
  }

  lemma BuildBuilt(w: World, c: ClassId, kwargs: map<string, Value>, specs: map<string, ParamSpec>,
                   vals: map<string, Value>, m: Made)
    requires WF(w) && c in w.classes && specs == ParamsOfClass(w, c) && kwargs.Keys <= specs.Keys && LiveArgs(w, kwargs)
    requires vals == Copied(w, c, specs) + kwargs
    requires m.obj == Ref(w.next, None)
    requires m.w == World(w.classes, w.heap + Copies(w, c, specs) + map[m.obj := Inst(c, vals, map[], [])],
                          w.next + 1, w.registry, PoolsWith(w, c, specs))
    ensures Built(w, c, kwargs, m)
  {
    BuildShape(w, c, kwargs, specs, vals, m);
    var copies := Copies(w, c, specs);
    assert m.w.heap[m.obj].vals == vals;
    CopiesKept(w.heap, copies, m.obj, Inst(c, vals, map[], []));
    BuildValues(w, c, kwargs, specs, m);
  }

  /** Adding the new instance after its copies leaves the copies in place. */
  lemma CopiesKept(h: Heap, copies: map<Ref, Obj>, me: Ref, o: Obj)
    requires me !in copies
    ensures forall r :: r in copies ==> r in h + copies + map[me := o] && (h + copies + map[me := o])[r] == copies[r]
  {
  }

  lemma BuildShape(w: World, c: ClassId, kwargs: map<string, Value>, specs: map<string, ParamSpec>,
                   vals: map<string, Value>, m: Made)
    requires WF(w) && c in w.classes && specs == ParamsOfClass(w, c) && kwargs.Keys <= specs.Keys && LiveArgs(w, kwargs)
    requires vals == Copied(w, c, specs) + kwargs
    requires m.obj == Ref(w.next, None)
    requires m.w.heap == w.heap + Copies(w, c, specs) + map[m.obj := Inst(c, vals, map[], [])]
    requires m.w.classes == w.classes && m.w.next == w.next + 1 && m.w.registry == w.registry
    requires PoolsAfter(w.pools, c, specs, Copied(w, c, specs), m.w.pools)
    ensures BuiltShape(w, c, kwargs, m)
  {
    var heap := m.w.heap;
    var copies := Copies(w, c, specs);
    NewHeapFacts(w, c, kwargs, specs, vals, m.obj, heap);
    PoolsLiveAfter(w, c, specs, m.w.pools, heap);
    WFExtend(w, m.w);
  }

  lemma NewHeapFacts(w: World, c: ClassId, kwargs: map<string, Value>, specs: map<string, ParamSpec>,
                     vals: map<string, Value>, me: Ref, heap: Heap)
    requires WF(w) && c in w.classes && specs == ParamsOfClass(w, c) && kwargs.Keys <= specs.Keys && LiveArgs(w, kwargs)
    requires vals == Copied(w, c, specs) + kwargs
    requires me == Ref(w.next, None)
    requires heap == w.heap + Copies(w, c, specs) + map[me := Inst(c, vals, map[], [])]
    ensures Extends(w.heap, heap) && Copies(w, c, specs).Keys <= heap.Keys
    ensures forall r :: r in heap && r !in w.heap ==>
      r.serial < w.next + 1 && LiveObj(heap, heap[r]) && (heap[r].Inst? ==> heap[r].cls in w.classes)
  {
    var copies := Copies(w, c, specs);
    assert Extends(w.heap, heap) by {
      forall r | r in w.heap ensures r in heap && heap[r] == w.heap[r] {
        assert r.serial < w.next;
      }
    }
    LiveGrows(w.heap, heap);
    NewValsLive(w, c, kwargs, specs, vals, heap);
    forall r | r in heap && r !in w.heap
      ensures r.serial < w.next + 1 && LiveObj(heap, heap[r]) && (heap[r].Inst? ==> heap[r].cls in w.classes)
    {
      if r != me {
        assert r in copies;
        var n :| n in InstNames(specs) && NeedsCopy(w, c, specs, n) && r == Ref(w.next, Some(n));
        assert heap[r] == w.heap[specs[n].default.r];
        assert LiveObj(w.heap, heap[r]);
      }
    }
  }

  lemma NewValsLive(w: World, c: ClassId, kwargs: map<string, Value>, specs: map<string, ParamSpec>,
                    vals: map<string, Value>, heap: Heap)
    requires WF(w) && c in w.classes && specs == ParamsOfClass(w, c) && kwargs.Keys <= specs.Keys && LiveArgs(w, kwargs)
    requires vals == Copied(w, c, specs) + kwargs
    requires Extends(w.heap, heap) && Copies(w, c, specs).Keys <= heap.Keys
    ensures forall n :: n in vals ==> Live(heap, vals[n])
  {
    LiveGrows(w.heap, heap);
    forall n | n in vals ensures Live(heap, vals[n]) {
      if n !in kwargs {
        InstValueLive(w, c, specs, n);
        if NeedsCopy(w, c, specs, n) {
          assert Ref(w.next, Some(n)) in Copies(w, c, specs);
        }
      }
    }
  }

  /** The value an instantiated parameter receives refers to a live object
      once the copies exist. */
  lemma InstValueLive(w: World, c: ClassId, specs: map<string, ParamSpec>, n: string)
    requires WF(w) && c in w.classes && specs == ParamsOfClass(w, c) && n in specs && specs[n].instantiate
    ensures !NeedsCopy(w, c, specs, n) ==> Live(w.heap, InstValue(w, c, specs, w.next, n))
    ensures NeedsCopy(w, c, specs, n) ==> InstValue(w, c, specs, w.next, n) == VRef(Ref(w.next, Some(n)))
  {
    AggregateLive(w, c, n);
    if Pooled(w, c, n) {
      assert Live(w.heap, w.pools[|w.pools| - 1][PoolKey(c, n)]);
    }
  }

  lemma PoolsLiveAfter(w: World, c: ClassId, specs: map<string, ParamSpec>, pools: seq<Pool>, heap: Heap)
    requires WF(w) && c in w.classes && specs == ParamsOfClass(w, c)
    requires PoolsAfter(w.pools, c, specs, Copied(w, c, specs), pools)
    requires Extends(w.heap, heap) && Copies(w, c, specs).Keys <= heap.Keys
    ensures PoolsLive(heap, pools)
  {
    forall i, key | 0 <= i < |pools| && key in pools[i] ensures Live(heap, pools[i][key]) {
      PoolEntryLive(w, c, specs, pools, heap, i, key);
    }
  }

  lemma PoolEntryLive(w: World, c: ClassId, specs: map<string, ParamSpec>, pools: seq<Pool>, heap: Heap, i: int, key: PoolKey)
    requires WF(w) && c in w.classes && specs == ParamsOfClass(w, c)
    requires PoolsAfter(w.pools, c, specs, Copied(w, c, specs), pools) && 0 <= i < |pools| && key in pools[i]
    requires Extends(w.heap, heap) && Copies(w, c, specs).Keys <= heap.Keys
    ensures Live(heap, pools[i][key])
  {
    LiveGrows(w.heap, heap);
    var last := |w.pools| - 1;
    if i == last && key !in w.pools[last] {
      var n := key.name;
      assert n in InstNames(specs) && key == PoolKey(c, n) && !Pooled(w, c, n);
      InstValueLive(w, c, specs, n);
      if NeedsCopy(w, c, specs, n) {
        assert Ref(w.next, Some(n)) in Copies(w, c, specs);
      }
    } else if i == last {
      assert pools[i][key] == w.pools[i][key];
      assert Live(w.heap, w.pools[i][key]);
    } else {
      assert pools[i] == pools[..last][i] == w.pools[..last][i] == w.pools[i];
      assert Live(w.heap, w.pools[i][key]);
    }
  }

  lemma BuildValues(w: World, c: ClassId, kwargs: map<string, Value>, specs: map<string, ParamSpec>, m: Made)
    requires WF(w) && c in w.classes && specs == ParamsOfClass(w, c) && kwargs.Keys <= specs.Keys
    requires BuiltShape(w, c, kwargs, m)
    requires m.w.heap[m.obj].vals == Copied(w, c, specs) + kwargs
    requires forall r :: r in Copies(w, c, specs) ==> r in m.w.heap && m.w.heap[r] == Copies(w, c, specs)[r]
    ensures BuiltValues(w, c, kwargs, m)
  {
    CopiesPlaced(w, c, specs, m.w.heap);
  }

  /** Each copy a construction allocates sits in the new heap under its
      fresh identity, holding the default's object. */
  lemma CopiesPlaced(w: World, c: ClassId, specs: map<string, ParamSpec>, heap: Heap)
    requires WF(w)
    requires forall r :: r in Copies(w, c, specs) ==> r in heap && heap[r] == Copies(w, c, specs)[r]
    ensures forall n :: NeedsCopy(w, c, specs, n) ==>
      Ref(w.next, Some(n)) in heap && Ref(w.next, Some(n)) !in w.heap && heap[Ref(w.next, Some(n))] == w.heap[specs[n].default.r]
  {
    NextIsFresh(w);
  }

  datatype Read = Read(w: World, v: Value)

  /** Whether reading `n` on `r` resolves a value provider. */
  predicate Resolves(w: World, r: Ref, n: string)
    requires WF(w) && IsInstance(w, r) && n in ParamsOfInstance(w, r)
  {
    IsDynamic(ParamsOfInstance(w, r)[n].kind) && IsProvider(w.heap, Current(w, r, n))
  }

  /** The value the provider behind `n` produces on the next read. */
  function Produced(w: World, r: Ref, n: string): real
    requires WF(w) && IsInstance(w, r) && n in ParamsOfInstance(w, r) && Resolves(w, r, n)
  {
    Peek(w.heap[Current(w, r, n).r])
  }

  /** The next produced value violates the bounds of a numeric parameter. */
  predicate OutOfBounds(w: World, r: Ref, n: string)
    requires WF(w) && IsInstance(w, r) && n in ParamsOfInstance(w, r) && Resolves(w, r, n)
  {
    var s := ParamsOfInstance(w, r)[n];
    s.kind == NumberKind && !InBounds(s.bounds, Produced(w, r, n))
  }

  /** What a read may change: the providers it resolves (which advance,
      keeping their script) and the record of the last value produced by
      the instance read. The instance's values and saved states stay. */
  ghost predicate ReadEffect(w: World, w': World, r: Ref)
    requires IsInstance(w, r)
  {
    && w'.classes == w.classes && w'.registry == w.registry && w'.pools == w.pools && w'.next == w.next
    && w'.heap.Keys == w.heap.Keys
    && (forall q :: q in w.heap && q != r && !w.heap[q].Provider? ==> w'.heap[q] == w.heap[q])
    && (forall q :: q in w.heap && w.heap[q].Provider? ==> w'.heap[q].Provider? && w'.heap[q].script == w.heap[q].script)
    && w'.heap[r].Inst? && w'.heap[r].cls == w.heap[r].cls
    && w'.heap[r].vals == w.heap[r].vals && w'.heap[r].saved == w.heap[r].saved
  }

  lemma ReadEffectTrans(w1: World, w2: World, w3: World, r: Ref)
    requires IsInstance(w1, r) && IsInstance(w2, r)
    requires ReadEffect(w1, w2, r) && ReadEffect(w2, w3, r)
    ensures ReadEffect(w1, w3, r)
  {
  }

  /** Provider `q` moves one step along its script. */
  function AdvanceProvider(w: World, r: Ref, q: Ref): (w1: World)
    requires WF(w) && IsInstance(w, r) && q in w.heap && w.heap[q].Provider?
    ensures WF(w1) && IsInstance(w1, r) && ReadEffect(w, w1, r)
    ensures w1.heap[q] == Advance(w.heap[q]) && w1.heap[r] == w.heap[r]
  {
    WFUpdate(w, q, Advance(w.heap[q]));
    w.(heap := w.heap[q := Advance(w.heap[q])])
  }

  /** Instance `r` records `x` as the last value parameter `n` produced. */
  function RecordLast(w: World, r: Ref, n: string, x: real): (w1: World)
    requires WF(w) && IsInstance(w, r)
    ensures WF(w1) && ReadEffect(w, w1, r)
    ensures w1.heap[r].last == w.heap[r].last[n := x]
    ensures forall q :: q in w.heap && q != r ==> w1.heap[q] == w.heap[q]
  {
    var o := w.heap[r];
    WFUpdate(w, r, o.(last := o.last[n := x]));
    w.(heap := w.heap[r := o.(last := o.last[n := x])])
  }

  /** The world after provider `q`, behind parameter `n` of instance `r`,
      produced `x`: the provider advances and `r` records `x` as last. */
  function AfterProduce(w: World, r: Ref, q: Ref, n: string, x: real): (w2: World)
    requires WF(w) && IsInstance(w, r) && q in w.heap && w.heap[q].Provider?
    ensures WF(w2) && ReadEffect(w, w2, r)
    ensures w2.heap[q] == Advance(w.heap[q]) && w2.heap[r].last == w.heap[r].last[n := x]
  {
    var w1 := AdvanceProvider(w, r, q);
    var w2 := RecordLast(w1, r, n, x);
    ReadEffectTrans(w, w1, w2, r);
    w2
  }

  /** Reading parameter `n` of instance `r`. A concrete value is returned
      as stored (or shared with the class); a provider behind a dynamic
      parameter is resolved, produces its next value, and that value is
      checked against the bounds only now. */
  function Get(w: World, r: Ref, n: string): (res: Result<Read>)
    requires WF(w) && IsInstance(w, r)
    ensures res == Err(AttributeError) <==> n !in ParamsOfInstance(w, r)
    ensures n in ParamsOfInstance(w, r) && !Resolves(w, r, n) ==> res == Ok(Read(w, Current(w, r, n)))
    ensures res.Ok? ==> WF(res.value.w) && ReadEffect(w, res.value.w, r)
    ensures n in ParamsOfInstance(w, r) && Resolves(w, r, n) && OutOfBounds(w, r, n) ==> res == Err(ValueError)
    ensures n in ParamsOfInstance(w, r) && Resolves(w, r, n) && !OutOfBounds(w, r, n) ==>
      && res.Ok? && res.value.v == VNum(Produced(w, r, n))
      && res.value.w.heap[Current(w, r, n).r] == Advance(w.heap[Current(w, r, n).r])
      && res.value.w.heap[r].last == w.heap[r].last[n := Produced(w, r, n)]
  {
    var specs := ParamsOfInstance(w, r);
    if n !in specs then Err(AttributeError)
    else
      var s := specs[n];
      var v := Current(w, r, n);
      if IsDynamic(s.kind) && IsProvider(w.heap, v) then
        var p := w.heap[v.r];
        var x := Peek(p);
        if s.kind == NumberKind && !InBounds(s.bounds, x) then Err(ValueError)
        else Ok(Read(AfterProduce(w, r, v.r, n, x), VNum(x)))
      else Ok(Read(w, v))
  }

  /** `inspect_value`: the last value a provider produced for `n`, or the
      stored value when none was produced; never resolves anything. */
  function InspectValue(w: World, r: Ref, n: string): (res: Result<Value>)
    requires WF(w) && IsInstance(w, r)
    ensures res.Err? <==> n !in ParamsOfInstance(w, r)
    ensures res.Err? ==> res.error == AttributeError
    ensures res.Ok? && n in w.heap[r].last ==> res.value == VNum(w.heap[r].last[n])
    ensures res.Ok? && n !in w.heap[r].last ==> res.value == Current(w, r, n)
  {
    if n !in ParamsOfInstance(w, r) then Err(AttributeError)
    else if n in w.heap[r].last then Ok(VNum(w.heap[r].last[n]))
    else Ok(Current(w, r, n))
  }

  /** Assigning `v` to parameter `n` of a constructed instance. Read-only
      and constant parameters raise `TypeError`; a rejected value raises
      `ValueError`; otherwise the instance owns `v` from now on and the
      record of a previously produced value is dropped. */
  function SetInstance(w: World, r: Ref, n: string, v: Value): (res: Result<World>)
    requires WF(w) && IsInstance(w, r) && Live(w.heap, v)
    ensures n !in ParamsOfInstance(w, r) ==> res == Err(AttributeError)
    ensures n in ParamsOfInstance(w, r) ==>
      var e := WriteError(ParamsOfInstance(w, r)[n], w.heap, v, true);
      (res.Err? <==> e.Some?) && (res.Err? ==> res.error == e.value)
    ensures res.Ok? ==> SetEffect(w, res.value, r, n, v)
  {
    var specs := ParamsOfInstance(w, r);
    if n !in specs then Err(AttributeError)
    else
      var e := WriteError(specs[n], w.heap, v, true);
      if e.Some? then Err(e.value)
      else
        var o := w.heap[r];
        var o' := o.(vals := o.vals[n := v], last := o.last - {n});
        assert LiveObj(w.heap, o) && LiveObj(w.heap, o');
        WFUpdate(w, r, o');
        Ok(w.(heap := w.heap[r := o']))
  }

  /** After a successful instance write: `n` holds `v`, every other
      parameter holds what it held, and no other object changed. */
  ghost predicate SetEffect(w: World, w': World, r: Ref, n: string, v: Value)
    requires WF(w) && IsInstance(w, r)
  {
    && WF(w') && IsInstance(w', r) && w'.classes == w.classes
    && w'.registry == w.registry && w'.pools == w.pools && w'.next == w.next
    && w'.heap.Keys == w.heap.Keys
    && (forall q :: q in w.heap && q != r ==> w'.heap[q] == w.heap[q])
    && w'.heap[r].cls == w.heap[r].cls && w'.heap[r].saved == w.heap[r].saved
    && n in ParamsOfInstance(w', r)
    && Current(w', r, n) == v && n !in w'.heap[r].last
    && (forall m :: m in ParamsOfInstance(w, r) && m != n ==> Current(w', r, m) == Current(w, r, m))
    && (forall m :: m in w.heap[r].last && m != n ==> m in w'.heap[r].last && w'.heap[r].last[m] == w.heap[r].last[m])
  }

  /** Reading a parameter on the class itself: its shared default. */
  function GetClass(w: World, c: ClassId, n: string): (res: Result<Value>)
    requires WF(w) && c in w.classes
    ensures res.Ok? <==> n in ParamsOfClass(w, c)
    ensures res.Ok? ==> res.value == ParamsOfClass(w, c)[n].default
    ensures res.Err? ==> res.error == AttributeError
  {
    var specs := ParamsOfClass(w, c);
    if n in specs then Ok(specs[n].default) else Err(AttributeError)
  }

  /** Assigning `v` to parameter `n` on class `c`: replaces the shared
      default, allowed for constant parameters and never for read-only
      ones. A parameter inherited from an ancestor gets its own
      declaration in `c`, so the ancestor keeps its default. */
  function SetClass(w: World, c: ClassId, n: string, v: Value): (res: Result<World>)
    requires WF(w) && c in w.classes && Live(w.heap, v)
    ensures n !in ParamsOfClass(w, c) ==> res == Err(AttributeError)
    ensures n in ParamsOfClass(w, c) ==>
      var e := WriteError(ParamsOfClass(w, c)[n], w.heap, v, false);
      (res.Err? <==> e.Some?) && (res.Err? ==> res.error == e.value)
    ensures res.Ok? ==> ClassSetEffect(w, res.value, c, n, v)
  {
    var specs := ParamsOfClass(w, c);
    if n !in specs then Err(AttributeError)
    else
      var e := WriteError(specs[n], w.heap, v, false);
      if e.Some? then Err(e.value)
      else
        var d := w.classes[c];
        var base := if n in d.own then d.own[n] else specs[n];
        var cs := w.classes[c := d.(own := d.own[n := base.(default := v)])];
        ClassSetSound(w, c, n, v, cs);
        Ok(w.(classes := cs))
  }

  /** After a successful class write: `c` reports `v` as the default of
      `n` and nothing else about it changed; the heap is untouched. */
  ghost predicate ClassSetEffect(w: World, w': World, c: ClassId, n: string, v: Value)
    requires WF(w) && c in w.classes && n in ParamsOfClass(w, c)
  {
    && WF(w') && w'.heap == w.heap && w'.registry == w.registry && w'.pools == w.pools && w'.next == w.next
    && w'.classes.Keys == w.classes.Keys
    && ParamsOfClass(w', c) == ParamsOfClass(w, c)[n := ParamsOfClass(w, c)[n].(default := v)]
    && (forall b :: b in w.classes && b != c ==> w'.classes[b] == w.classes[b])
    && (forall b :: b in w.classes && b < c ==> ParamsOfClass(w', b) == ParamsOfClass(w, b))
  }

  lemma ClassSetSound(w: World, c: ClassId, n: string, v: Value, cs: Classes)
    requires WF(w) && c in w.classes && n in ParamsOfClass(w, c) && Live(w.heap, v)
    requires WriteError(ParamsOfClass(w, c)[n], w.heap, v, false).None?
    requires var d := w.classes[c];
      var base := if n in d.own then d.own[n] else ParamsOfClass(w, c)[n];
      cs == w.classes[c := d.(own := d.own[n := base.(default := v)])]
    ensures ClassSetEffect(w, w.(classes := cs), c, n, v)
  {
    ClassSetHierarchy(w, c, n, v, cs);
    var w' := w.(classes := cs);
    forall b | b in w.classes && b < c
      ensures ParamsOfClass(w', b) == ParamsOfClass(w, b)
    {
      AggregateAgree(w.classes, cs, b);
    }
    ClassSetAggregate(w.classes, c, n, v, cs);
  }

  lemma ClassSetHierarchy(w: World, c: ClassId, n: string, v: Value, cs: Classes)
    requires WF(w) && c in w.classes && n in ParamsOfClass(w, c) && Live(w.heap, v)
    requires WriteError(ParamsOfClass(w, c)[n], w.heap, v, false).None?
    requires var d := w.classes[c];
      var base := if n in d.own then d.own[n] else ParamsOfClass(w, c)[n];
      cs == w.classes[c := d.(own := d.own[n := base.(default := v)])]
    ensures Hierarchy(cs) && WF(w.(classes := cs))
  {
    AggregateNormalized(w.classes, c, n);
    var d := w.classes[c];
    var base := if n in d.own then d.own[n] else ParamsOfClass(w, c)[n];
    OwnUpdateHierarchy(w.classes, c, n, base.(default := v));
    OwnUpdateWF(w, c, n, base.(default := v));
  }

  /** Replacing one declared parameter by a normalized one keeps the hierarchy. */
  lemma OwnUpdateHierarchy(cs0: Classes, c: ClassId, n: string, s: ParamSpec)
    requires Hierarchy(cs0) && c in cs0 && Normalized(s)
    ensures Hierarchy(cs0[c := cs0[c].(own := cs0[c].own[n := s])])
  {
    var cs := cs0[c := cs0[c].(own := cs0[c].own[n := s])];
    forall b, m | b in cs && m in cs[b].own ensures Normalized(cs[b].own[m]) {
      if b != c || m != n {
        assert cs[b].own[m] == cs0[b].own[m];
      }
    }
  }

  /** Replacing one declared parameter by one with a live default keeps the
      world well formed. */
  lemma OwnUpdateWF(w: World, c: ClassId, n: string, s: ParamSpec)
    requires WF(w) && c in w.classes && Live(w.heap, s.default)
    requires Hierarchy(w.classes[c := w.classes[c].(own := w.classes[c].own[n := s])])
    ensures WF(w.(classes := w.classes[c := w.classes[c].(own := w.classes[c].own[n := s])]))
  {
    var cs := w.classes[c := w.classes[c].(own := w.classes[c].own[n := s])];
    forall b, m | b in cs && m in cs[b].own ensures Live(w.heap, cs[b].own[m].default) {
      if b != c || m != n {
        assert cs[b].own[m] == w.classes[b].own[m];
      }
    }
  }

  lemma ClassSetAggregate(cs0: Classes, c: ClassId, n: string, v: Value, cs: Classes)
    requires Hierarchy(cs0) && c in cs0 && n in Aggregate(cs0, c)
    requires var d := cs0[c];
      var base := if n in d.own then d.own[n] else Aggregate(cs0, c)[n];
      cs == cs0[c := d.(own := d.own[n := base.(default := v)])]
    requires Hierarchy(cs)
    ensures Aggregate(cs, c) == Aggregate(cs0, c)[n := Aggregate(cs0, c)[n].(default := v)]
  {
    var specs := Aggregate(cs0, c);
    var d := cs0[c];
    var base := if n in d.own then d.own[n] else specs[n];
    match d.parent
    case None =>
    case Some(p) =>
      AggregateAgree(cs0, cs, p);
      var up := Aggregate(cs0, p);
      var sticky := InstantiatedNames(cs0, p);
      var own' := d.own[n := base.(default := v)];
      assert cs[c].own == own' && cs[c].parent == Some(p);
      assert Aggregate(cs, c) == (map m | m in up.Keys + own'.Keys :: if m in own' then Inherit(own'[m], m in sticky) else up[m]);
      if n in d.own {
        assert specs[n] == Inherit(d.own[n], n in sticky);
      } else {
        InheritAggregated(cs0, p, n);
        assert specs[n] == up[n];
      }
      MergeUpdate(up, d.own, sticky, n, base.(default := v));
  }

  /** Redeclaring one name in a class's own mapping changes the merged
      mapping at that name only. */
  lemma MergeUpdate(up: map<string, ParamSpec>, own: map<string, ParamSpec>, sticky: set<string>, n: string, s: ParamSpec)
    ensures var own' := own[n := s];
      (map m | m in up.Keys + own'.Keys :: if m in own' then Inherit(own'[m], m in sticky) else up[m])
      == (map m | m in up.Keys + own.Keys :: if m in own then Inherit(own[m], m in sticky) else up[m])[n := Inherit(s, n in sticky)]
  {
  }

  /** `lst[i] = x` on a list object, with Python's negative indices. */
  function ListSetItem(w: World, p: Ref, i: int, x: Value): (res: Result<World>)
    requires WF(w) && p in w.heap && w.heap[p].ListObj? && Live(w.heap, x)
    ensures var len := |w.heap[p].items|;
      res.Ok? <==> -len <= i < len
    ensures res.Err? ==> res.error == IndexError
    ensures res.Ok? ==>
      var len := |w.heap[p].items|;
      var j := if i < 0 then i + len else i;
      && WF(res.value) && res.value.classes == w.classes && res.value.heap.Keys == w.heap.Keys
      && res.value.registry == w.registry && res.value.pools == w.pools && res.value.next == w.next
      && res.value.heap[p] == ListObj(w.heap[p].items[j := x])
      && (forall q :: q in w.heap && q != p ==> res.value.heap[q] == w.heap[q])
  {
    var items := w.heap[p].items;
    if -|items| <= i < |items| then
      var j := if i < 0 then i + |items| else i;
      WFUpdate(w, p, ListObj(items[j := x]));
      Ok(w.(heap := w.heap[p := ListObj(items[j := x])]))
    else Err(IndexError)
  }

  /** What a new instance holds for each parameter, read back through the
      protocol's `Current`: the keyword argument, the shared default, the
      pooled object, or a fresh shallow copy of the default. */
  lemma ConstructedValue(w: World, c: ClassId, kwargs: map<string, Value>, m: Made, n: string)
    requires WF(w) && c in w.classes && Built(w, c, kwargs, m) && n in ParamsOfClass(w, c)
    ensures var s := ParamsOfClass(w, c)[n];
      && WF(m.w) && IsInstance(m.w, m.obj) && m.obj !in w.heap && Live(w.heap, s.default)
      && ParamsOfInstance(m.w, m.obj) == ParamsOfClass(w, c)
      && (n in kwargs ==> Current(m.w, m.obj, n) == kwargs[n])
      && (n !in kwargs && !s.instantiate ==> Current(m.w, m.obj, n) == s.default)
      && (n !in kwargs && s.instantiate && Pooled(w, c, n) ==> Current(m.w, m.obj, n) == TopPool(w)[PoolKey(c, n)])
      && (n !in kwargs && s.instantiate && !Pooled(w, c, n) && !s.default.VRef? ==> Current(m.w, m.obj, n) == s.default)
      && (n !in kwargs && s.instantiate && !Pooled(w, c, n) && s.default.VRef? ==>
            var q := Ref(w.next, Some(n));
            Current(m.w, m.obj, n) == VRef(q) && q !in w.heap && q in m.w.heap && m.w.heap[q] == w.heap[s.default.r])
  {
    var specs := ParamsOfClass(w, c);
    var vals := m.w.heap[m.obj].vals;
    assert ParamsOfInstance(m.w, m.obj) == specs;
    AggregateLive(w, c, n);
    if n !in kwargs && specs[n].instantiate && !Pooled(w, c, n) && specs[n].default.VRef? {
      assert NeedsCopy(w, c, specs, n);
    }
  }

  /** Inside a sharing scope, a construction leaves in the innermost pool,
      for every instantiated parameter, the object the next instance of
      the same class will reuse: the one already pooled, or else the
      fresh copy this construction made. */
  lemma PooledAfter(w: World, c: ClassId, m: Made, n: string)
    requires WF(w) && c in w.classes && Pooling(w)
    requires PoolsAfter(w.pools, c, ParamsOfClass(w, c), Copied(w, c, ParamsOfClass(w, c)), m.w.pools)
    requires n in ParamsOfClass(w, c) && ParamsOfClass(w, c)[n].instantiate
    ensures Pooled(m.w, c, n)
    ensures Pooled(w, c, n) ==> TopPool(m.w)[PoolKey(c, n)] == TopPool(w)[PoolKey(c, n)]
    ensures !Pooled(w, c, n) && ParamsOfClass(w, c)[n].default.VRef? ==>
      TopPool(m.w)[PoolKey(c, n)] == VRef(Ref(w.next, Some(n)))
    ensures !Pooled(w, c, n) && !ParamsOfClass(w, c)[n].default.VRef? ==>
      TopPool(m.w)[PoolKey(c, n)] == ParamsOfClass(w, c)[n].default
  {
    var specs := ParamsOfClass(w, c);
    assert n in InstNames(specs);
    AggregateLive(w, c, n);
    var made := Copied(w, c, specs);
    PoolsAfterAt(w.pools, c, specs, made, m.w.pools, n);
    assert made[n] == InstValue(w, c, specs, w.next, n);
  }

  /** What the top pool holds for an instantiated parameter after a
      construction: what it held before, or else the value made now. */
  lemma PoolsAfterAt(ps: seq<Pool>, c: ClassId, specs: map<string, ParamSpec>, made: map<string, Value>, ps': seq<Pool>, n: string)
    requires PoolsAfter(ps, c, specs, made, ps') && |ps| > 0 && n in InstNames(specs)
    ensures |ps'| == |ps| && PoolKey(c, n) in ps'[|ps| - 1]
    ensures PoolKey(c, n) in ps[|ps| - 1] ==> ps'[|ps| - 1][PoolKey(c, n)] == ps[|ps| - 1][PoolKey(c, n)]
    ensures PoolKey(c, n) !in ps[|ps| - 1] ==> n in made && ps'[|ps| - 1][PoolKey(c, n)] == made[n]
  {
  }
}

=== FILE: behaviour.dfy ===
/** The behaviour the unit tests of `Parameterized` pin down, as lemmas
    grouped by test, each stated for every class and parameter of the shape the
    test uses rather than for its literal classes only. */
module Behaviour {
  import opened Outcomes
  import opened Values
  import opened Specs
  import opened Classes
  import opened Worlds
  import opened Attributes
  import opened Snapshots
  import opened Overrides

  /** `test_constant_parameter`: a constant parameter takes its value at
      construction, refuses instance writes afterwards, and a class-level
      write is what the next new instance sees. */
  lemma ConstantParameter(w: World, c: ClassId, n: string, v: Value, later: Value, v2: Value)
    requires WF(w) && c in w.classes && w.pools == []
    requires n in ParamsOfClass(w, c)
    requires var s := ParamsOfClass(w, c)[n]; s.constant && !s.readonly && !IsDynamic(s.kind)
    requires Live(w.heap, v) && Admits(ParamsOfClass(w, c)[n], w.heap, v)
    requires Live(w.heap, later)
    requires Live(w.heap, v2) && Admits(ParamsOfClass(w, c)[n], w.heap, v2) && !v2.VRef?
    ensures Construct(w, c, map[n := v]).Ok?
    ensures var m := Construct(w, c, map[n := v]).value;
      && Get(m.w, m.obj, n) == Ok(Read(m.w, v))
      && SetInstance(m.w, m.obj, n, later) == Err(TypeError)
      && SetClass(m.w, c, n, v2).Ok?
      && var w2 := SetClass(m.w, c, n, v2).value;
         && Construct(w2, c, map[]).Ok?
         && var m2 := Construct(w2, c, map[]).value;
            Get(m2.w, m2.obj, n) == Ok(Read(m2.w, v2))
  {
    var kw := map[n := v];
    assert !SomeReadonly(ParamsOfClass(w, c), kw);
    assert !SomeInvalid(ParamsOfClass(w, c), w.heap, kw);
    var m := Construct(w, c, kw).value;
    ConstructedValue(w, c, kw, m, n);
    LiveGrows(w.heap, m.w.heap);
    ClassSetSeenByNewInstances(m.w, c, n, v2);
  }

  /** A class-level write is the value every instance constructed
      afterwards reads. */
  lemma ClassSetSeenByNewInstances(w: World, c: ClassId, n: string, v2: Value)
    requires WF(w) && c in w.classes && w.pools == []
    requires n in ParamsOfClass(w, c)
    requires var s := ParamsOfClass(w, c)[n]; !s.readonly && !IsDynamic(s.kind)
    requires Live(w.heap, v2) && Admits(ParamsOfClass(w, c)[n], w.heap, v2) && !v2.VRef?
    ensures SetClass(w, c, n, v2).Ok?
    ensures var w2 := SetClass(w, c, n, v2).value;
      && Construct(w2, c, map[]).Ok?
      && var m := Construct(w2, c, map[]).value;
         Get(m.w, m.obj, n) == Ok(Read(m.w, v2))
  {
    var w2 := SetClass(w, c, n, v2).value;
    assert ParamsOfClass(w2, c)[n].default == v2;
    var kw: map<string, Value> := map[];
    var m := Construct(w2, c, kw).value;
    ConstructedValue(w2, c, kw, m, n);
  }

  /** `test_readonly_parameter`: a read-only parameter reads its default,
      refuses a value at construction, on the instance and on the class,
      and its aggregated spec is constant and never instantiated. */
  lemma ReadonlyParameter(w: World, c: ClassId, n: string, v: Value)
    requires WF(w) && c in w.classes && w.pools == []
    requires n in ParamsOfClass(w, c) && ParamsOfClass(w, c)[n].readonly
    requires !IsProvider(w.heap, ParamsOfClass(w, c)[n].default)
    requires Live(w.heap, v)
    ensures ParamsOfClass(w, c)[n].constant && !ParamsOfClass(w, c)[n].instantiate
    ensures Construct(w, c, map[n := v]) == Err(TypeError)
    ensures SetClass(w, c, n, v) == Err(TypeError)
    ensures Construct(w, c, map[]).Ok?
    ensures var m := Construct(w, c, map[]).value;
      && Get(m.w, m.obj, n) == Ok(Read(m.w, ParamsOfClass(w, c)[n].default))
      && SetInstance(m.w, m.obj, n, v) == Err(TypeError)
  {
    AggregateNormalized(w.classes, c, n);
    var kw := map[n := v];
    assert SomeReadonly(ParamsOfClass(w, c), kw);
    var none: map<string, Value> := map[];
    var m := Construct(w, c, none).value;
    ConstructedValue(w, c, none, m, n);
    LiveGrows(w.heap, m.w.heap);
  }

  /** A declaration with `readonly=True, instantiate=True` (like `ro2`)
      is registered as constant and not instantiated. */
  lemma ReadonlyIgnoresInstantiate(w: World, parent: Option<ClassId>, own: map<string, ParamSpec>, n: string)
    requires WF(w) && (parent.Some? ==> parent.value in w.classes)
    requires forall m :: m in own ==> Live(w.heap, own[m].default)
    requires n in own && own[n].readonly && own[n].instantiate
    ensures var reg := RegisterClass(w, parent, own, false);
      && ParamNamed(reg.w, reg.id, n).Ok?
      && ParamNamed(reg.w, reg.id, n).value.constant
      && !ParamNamed(reg.w, reg.id, n).value.instantiate
  {
    var reg := RegisterClass(w, parent, own, false);
    AggregateKeys(reg.w.classes, reg.id, n);
    assert Descends(reg.w.classes, reg.id, reg.id);
    AggregateNormalized(reg.w.classes, reg.id, n);
  }

  /** Writing into a list object leaves every instance's parameters as
      they were; a parameter holding a list reads that list as stored. */
  lemma ListWriteKeepsInstance(w: World, r: Ref, n: string, p: Ref, i: int, x: Value)
    requires WF(w) && IsInstance(w, r) && n in ParamsOfInstance(w, r)
    requires p in w.heap && w.heap[p].ListObj? && Live(w.heap, x)
    requires ListSetItem(w, p, i, x).Ok?
    ensures var w2 := ListSetItem(w, p, i, x).value;
      && IsInstance(w2, r) && ParamsOfInstance(w2, r) == ParamsOfInstance(w, r)
      && Current(w2, r, n) == Current(w, r, n)
      && (Current(w, r, n).VRef? && Current(w, r, n).r in w.heap && w.heap[Current(w, r, n).r].ListObj? ==>
            Get(w2, r, n) == Ok(Read(w2, Current(w, r, n))))
  {
    var w2 := ListSetItem(w, p, i, x).value;
    assert w2.heap[r] == w.heap[r];
  }

  /** The first half of `test_basic_instantiation`: a parameter of any
      instance a construction without keywords builds, read on the
      instance, equals the same parameter read on the class; when the
      parameter is not instantiated it is the class's value itself. */
  lemma InstanceReadsClassDefault(w: World, c: ClassId, n: string, m: Made)
    requires WF(w) && c in w.classes && w.pools == []
    requires n in ParamsOfClass(w, c) && Settled(ParamsOfClass(w, c)[n])
    requires Built(w, c, map[], m)
    ensures WF(m.w) && IsInstance(m.w, m.obj) && c in m.w.classes
    ensures GetClass(m.w, c, n).Ok? && Get(m.w, m.obj, n).Ok? && Get(m.w, m.obj, n).value.w == m.w
    ensures SameContents(m.w.heap, Get(m.w, m.obj, n).value.v, GetClass(m.w, c, n).value)
    ensures !ParamsOfClass(w, c)[n].instantiate ==> Get(m.w, m.obj, n).value.v == GetClass(m.w, c, n).value
  {
    var none: map<string, Value> := map[];
    ConstructedValue(w, c, none, m, n);
    var d := ParamsOfClass(w, c)[n].default;
    if d.VRef? {
      assert m.w.heap[d.r] == w.heap[d.r];
    }
  }

  /** `test_basic_instantiation`: an instantiated list parameter is a new
      list equal to the class's, and mutating the class's list afterwards
      leaves it alone. */
  lemma InstantiatedIsCopied(w: World, c: ClassId, n: string, i: int, x: Value, m: Made)
    requires WF(w) && c in w.classes && w.pools == []
    requires n in ParamsOfClass(w, c)
    requires var s := ParamsOfClass(w, c)[n];
      s.instantiate && s.default.VRef? && s.default.r in w.heap && w.heap[s.default.r].ListObj?
    requires Live(w.heap, x)
    requires Built(w, c, map[], m)
    ensures var p := ParamsOfClass(w, c)[n].default.r;
      var q := Ref(w.next, Some(n));
      && WF(m.w) && IsInstance(m.w, m.obj) && p in m.w.heap && m.w.heap[p].ListObj? && Live(m.w.heap, x)
      && Get(m.w, m.obj, n) == Ok(Read(m.w, VRef(q)))
      && q != p && SameContents(m.w.heap, VRef(q), VRef(p))
      && (ListSetItem(m.w, p, i, x).Ok? ==>
            var w2 := ListSetItem(m.w, p, i, x).value;
            && WF(w2) && IsInstance(w2, m.obj) && q in w2.heap
            && Get(w2, m.obj, n) == Ok(Read(w2, VRef(q))) && w2.heap[q] == w.heap[p])
  {
    var none: map<string, Value> := map[];
    ConstructedValue(w, c, none, m, n);
    var p := ParamsOfClass(w, c)[n].default.r;
    assert m.w.heap[p] == w.heap[p];
    LiveGrows(w.heap, m.w.heap);
    if ListSetItem(m.w, p, i, x).Ok? {
      ListWriteKeepsInstance(m.w, m.obj, n, p, i, x);
    }
  }

  /** The other half of `test_basic_instantiation`: a parameter that is not
      instantiated reads the class's own list, so mutating it is visible
      through the instance. */
  lemma SharedDefaultIsAliased(w: World, c: ClassId, n: string, i: int, x: Value, m: Made)
    requires WF(w) && c in w.classes
    requires n in ParamsOfClass(w, c)
    requires var s := ParamsOfClass(w, c)[n];
      !s.instantiate && s.default.VRef? && s.default.r in w.heap && w.heap[s.default.r].ListObj?
    requires Live(w.heap, x)
    requires Built(w, c, map[], m)
    ensures var p := ParamsOfClass(w, c)[n].default.r;
      && WF(m.w) && IsInstance(m.w, m.obj) && p in m.w.heap && m.w.heap[p].ListObj? && Live(m.w.heap, x)
      && Get(m.w, m.obj, n) == Ok(Read(m.w, VRef(p)))
      && (ListSetItem(m.w, p, i, x).Ok? ==>
            var w2 := ListSetItem(m.w, p, i, x).value;
            var len := |w.heap[p].items|;
            && WF(w2) && IsInstance(w2, m.obj) && p in w2.heap
            && Get(w2, m.obj, n) == Ok(Read(w2, VRef(p)))
            && w2.heap[p] == ListObj(w.heap[p].items[(if i < 0 then i + len else i) := x]))
  {
    var none: map<string, Value> := map[];
    ConstructedValue(w, c, none, m, n);
    var p := ParamsOfClass(w, c)[n].default.r;
    assert m.w.heap[p] == w.heap[p];
    LiveGrows(w.heap, m.w.heap);
    if ListSetItem(m.w, p, i, x).Ok? {
      ListWriteKeepsInstance(m.w, m.obj, n, p, i, x);
    }
  }

  /** `test_more_instantiation`: a parameter that is not instantiated
      stays shared through a copy. The copy of `d` made for a new instance
      of `c` is a new object, yet for its own non-instantiated parameter
      `k`, which `d` does not store, it reads the very list the class of
      `d` declares, not a copy of it. */
  lemma CopyKeepsSharedParameter(w: World, c: ClassId, n: string, k: string, m: Made)
    requires WF(w) && c in w.classes && w.pools == []
    requires n in ParamsOfClass(w, c)
    requires var s := ParamsOfClass(w, c)[n];
      s.instantiate && s.default.VRef? && IsInstance(w, s.default.r)
    requires var d := ParamsOfClass(w, c)[n].default.r;
      && k in ParamsOfInstance(w, d) && k !in w.heap[d].vals
      && var t := ParamsOfInstance(w, d)[k];
         t.default.VRef? && t.default.r in w.heap && w.heap[t.default.r].ListObj?
    requires Built(w, c, map[], m)
    ensures var d := ParamsOfClass(w, c)[n].default.r;
      var q := Ref(w.next, Some(n));
      var p := ParamsOfInstance(w, d)[k].default.r;
      && WF(m.w) && IsInstance(m.w, m.obj) && IsInstance(m.w, q) && q != d
      && Get(m.w, m.obj, n) == Ok(Read(m.w, VRef(q)))
      && k in ParamsOfInstance(m.w, q) && Current(m.w, q, k) == VRef(p)
      && p in m.w.heap && m.w.heap[p] == w.heap[p]
  {
    var none: map<string, Value> := map[];
    ConstructedValue(w, c, none, m, n);
    var d := ParamsOfClass(w, c)[n].default.r;
    var q := Ref(w.next, Some(n));
    var p := ParamsOfInstance(w, d)[k].default.r;
    assert m.w.heap[q] == w.heap[d];
    assert m.w.heap[p] == w.heap[p];
  }

  /** `test_instantiation_inheritance`: a subclass that redeclares a
      parameter its parent instantiates still instantiates it, whatever the
      redeclaration says, so a new instance holds a copy of the object
      default and not the object itself. */
  lemma InstantiationInheritance(w: World, a: ClassId, n: string, s: ParamSpec, d: Ref, m: Made)
    requires WF(w) && a in w.classes && w.pools == []
    requires n in ParamsOfClass(w, a) && ParamsOfClass(w, a)[n].instantiate
    requires !s.readonly && s.default == VRef(d) && IsInstance(w, d)
    requires var reg := RegisterClass(w, Some(a), map[n := s], false);
      Built(reg.w, reg.id, map[], m)
    ensures var reg := RegisterClass(w, Some(a), map[n := s], false);
      var q := Ref(reg.w.next, Some(n));
      && ParamNamed(reg.w, reg.id, n).Ok? && ParamNamed(reg.w, reg.id, n).value.instantiate
      && WF(m.w) && IsInstance(m.w, m.obj)
      && Get(m.w, m.obj, n) == Ok(Read(m.w, VRef(q)))
      && q != d && IsInstance(m.w, q) && m.w.heap[q].cls == w.heap[d].cls
  {
    var reg := RegisterClass(w, Some(a), map[n := s], false);
    assert ParamsOfClass(reg.w, a) == ParamsOfClass(w, a);
    var specs := ParamsOfClass(reg.w, reg.id);
    InstantiateOrigin(w.classes, a, n);
    var b :| Descends(w.classes, a, b) && b in w.classes && n in w.classes[b].own && w.classes[b].own[n].instantiate;
    AncestorInstantiates(w.classes, a, b, n);
    AggregateAgree(w.classes, reg.w.classes, a);
    assert specs[n] == Inherit(Normalize(s), true);
    var none: map<string, Value> := map[];
    ConstructedValue(reg.w, reg.id, none, m, n);
  }

  /** `test_abstract_class`: `abstract` belongs to the class that declares
      it; a subclass of an abstract class is not abstract unless it says so. */
  lemma AbstractOnlyWhereDeclared(w: World, parent: Option<ClassId>, own: map<string, ParamSpec>, own2: map<string, ParamSpec>)
    returns (a: Registered, b: Registered)
    requires WF(w) && (parent.Some? ==> parent.value in w.classes)
    requires forall n :: n in own ==> Live(w.heap, own[n].default)
    requires forall n :: n in own2 ==> Live(w.heap, own2[n].default)
    ensures a == RegisterClass(w, parent, own, true)
    ensures WF(a.w) && a.id in a.w.classes && a.w.heap == w.heap
    ensures b == RegisterClass(a.w, Some(a.id), own2, false)
    ensures WF(b.w) && a.id in b.w.classes && b.id in b.w.classes
    ensures IsAbstract(a.w, a.id) && IsAbstract(b.w, a.id) && !IsAbstract(b.w, b.id)
  {
    a := RegisterClass(w, parent, own, true);
    b := RegisterClass(a.w, Some(a.id), own2, false);
  }

  /** `test_params`: asking a superclass for its parameters first does not
      hide the subclass's own parameters from a later query. */
  lemma ParamsAfterSuperclassQueried(w: World, a: ClassId, c: ClassId)
    requires WF(w) && a in w.classes && c in w.classes && Descends(w.classes, c, a)
    ensures var first := Params(w, a);
      var second := Params(first.w, c);
      && second.view.specs == ParamsOfClass(w, c)
      && first.view.specs.Keys <= second.view.specs.Keys
      && w.classes[c].own.Keys <= second.view.specs.Keys
  {
    AggregateInherited(w.classes, c, a);
  }

  /** The caching half of `test_params`: the mapping a class hands out is
      the very object an instance of it hands out later. */
  lemma ParamsIdentity(w: World, c: ClassId)
    requires WF(w) && c in w.classes
    ensures var first := Params(w, c);
      && Construct(first.w, c, map[]).Ok?
      && var m := Construct(first.w, c, map[]).value;
         ParamsOf(m.w, m.obj).view == first.view
  {
    var first := Params(w, c);
    var none: map<string, Value> := map[];
    var m := Construct(first.w, c, none).value;
    assert m.w.heap[m.obj].cls == c;
  }

  /** `test_state_saving`: reads of a dynamic parameter backed by a
      provider yield the script's consecutive values; after `state_push`,
      a further read moves `inspect_value` on, and `state_pop` brings
      back the value seen before the push. */
  lemma StateSaving(w: World, r: Ref, n: string) returns (w1: World, w2: World, w3: World)
    requires WF(w) && IsInstance(w, r) && n in ParamsOfInstance(w, r)
    requires ParamsOfInstance(w, r)[n].kind == DynamicKind && IsProvider(w.heap, Current(w, r, n))
    ensures Get(w, r, n) == Ok(Read(w1, VNum(Peek(w.heap[Current(w, r, n).r]))))
    ensures WF(w1) && IsInstance(w1, r) && InspectValue(w1, r, n) == Ok(VNum(Peek(w.heap[Current(w, r, n).r])))
    ensures w2 == StatePush(w1, r)
    ensures Get(w2, r, n) == Ok(Read(w3, VNum(Peek(Advance(w.heap[Current(w, r, n).r])))))
    ensures WF(w3) && IsInstance(w3, r) && InspectValue(w3, r, n) == Ok(VNum(Peek(Advance(w.heap[Current(w, r, n).r]))))
    ensures |w3.heap[r].saved| > 0 && InspectValue(StatePop(w3, r), r, n) == Ok(VNum(Peek(w.heap[Current(w, r, n).r])))
  {
    w1 := DynamicRead(w, r, n);
    w2 := StatePush(w1, r);
    assert Current(w2, r, n) == Current(w1, r, n);
    w3 := DynamicRead(w2, r, n);
    PushPopRoundTrip(w1, r, w3);
  }

  /** Reading a dynamic parameter whose value is a provider: the read
      answers the provider's next value, which `inspect_value` then
      reports, and the provider moves on. */
  lemma DynamicRead(w: World, r: Ref, n: string) returns (w1: World)
    requires WF(w) && IsInstance(w, r) && n in ParamsOfInstance(w, r)
    requires ParamsOfInstance(w, r)[n].kind == DynamicKind && IsProvider(w.heap, Current(w, r, n))
    ensures Get(w, r, n) == Ok(Read(w1, VNum(Peek(w.heap[Current(w, r, n).r]))))
    ensures WF(w1) && IsInstance(w1, r) && w1.classes == w.classes
    ensures w1.heap[r].cls == w.heap[r].cls && w1.heap[r].vals == w.heap[r].vals && w1.heap[r].saved == w.heap[r].saved
    ensures n in ParamsOfInstance(w1, r) && Current(w1, r, n) == Current(w, r, n)
    ensures w1.heap[Current(w, r, n).r] == Advance(w.heap[Current(w, r, n).r])
    ensures InspectValue(w1, r, n) == Ok(VNum(Peek(w.heap[Current(w, r, n).r])))
  {
    w1 := Get(w, r, n).value.w;
  }

  /** A class ready for calls whose keyword `n`, if given, is the live
      value `x`. */
  predicate KeywordReady(w: World, c: ClassId, names: seq<string>, n: string, x: Value) {
    && ClassCallReady(w, c, names) && n in ParamsOfClass(w, c)
    && Live(w.heap, x)
  }

  /** One call on a ready class, with at most one keyword `n`: it answers
      as `Answers` says and leaves the class ready, with the same
      declarations, in a heap that still holds `x` as it was. */
  lemma ClassCallStep(w: World, c: ClassId, names: seq<string>, n: string, kwargs: map<string, Value>, x: Value) returns (out: Called)
    requires KeywordReady(w, c, names, n, x)
    requires kwargs == map[] || kwargs == map[n := x]
    ensures WF(w) && c in w.classes && CallClass(w, c, names, kwargs) == Ok(out)
    ensures Answers(ParamsOfClass(w, c), names, kwargs, out)
    ensures ParamsOfClass(out.w, c) == ParamsOfClass(w, c) && KeywordReady(out.w, c, names, n, x)
  {
    var specs := ParamsOfClass(w, c);
    CallClassValues(w, c, names, kwargs);
    out := CallClass(w, c, names, kwargs).value;
    var r := Ref(w.next, None);
    assert r !in w.heap;
    ReadyKept(w, c, names, out.w, r);
    KeepsAdmits(specs[n], w.heap, out.w.heap, r, x);
  }

  /** Setting the class default of `n` to an accepted, settled `v` keeps
      the class ready for calls. */
  lemma ClassSetStep(w: World, c: ClassId, names: seq<string>, n: string, v: Value)
    requires ClassCallReady(w, c, names) && n in ParamsOfClass(w, c)
    requires Live(w.heap, v) && WriteError(ParamsOfClass(w, c)[n], w.heap, v, false).None? && !IsProvider(w.heap, v)
    requires Settled(ParamsOfClass(w, c)[n].(default := v))
    ensures SetClass(w, c, n, v).Ok?
    ensures var w4 := SetClass(w, c, n, v).value;
      && ParamsOfClass(w4, c) == ParamsOfClass(w, c)[n := ParamsOfClass(w, c)[n].(default := v)]
      && ClassCallReady(w4, c, names) && w4.heap == w.heap
  {
  }

  /** `test_parameterized_function` on the class: in any run of calls,
      each with or without the keyword `n`, every call answers the
      defaults the class had at the start except where its own keyword
      overrides, so a keyword lasts for its call only. */
  lemma FunctionOverridesOnce(w: World, c: ClassId, names: seq<string>, n: string, x: Value, kws: seq<map<string, Value>>)
    requires ClassCallReady(w, c, names) && n in ParamsOfClass(w, c)
    requires Live(w.heap, x)
    requires forall kw :: kw in kws ==> kw == map[] || kw == map[n := x]
    ensures ClassCallsAnswer(ParamsOfClass(w, c), w, c, names, kws)
  {
    ClassCallsFrom(w, c, names, n, x, kws);
  }

  lemma {:induction false} ClassCallsFrom(w: World, c: ClassId, names: seq<string>, n: string, x: Value, kws: seq<map<string, Value>>)
    requires KeywordReady(w, c, names, n, x)
    requires forall kw :: kw in kws ==> kw == map[] || kw == map[n := x]
    ensures ClassCallsAnswer(ParamsOfClass(w, c), w, c, names, kws)
    decreases |kws|
  {
    if |kws| > 0 {
      OnlyKeywordTail(kws, n, x);
      var out := ClassCallStep(w, c, names, n, kws[0], x);
      ClassCallsFrom(out.w, c, names, n, x, kws[1..]);
      ClassCallsCons(ParamsOfClass(w, c), w, c, names, kws, out);
    }
  }

  /** The first call, and every call after it, uses the keyword `n` or
      none, as all did. */
  lemma OnlyKeywordTail(kws: seq<map<string, Value>>, n: string, x: Value)
    requires |kws| > 0 && forall kw :: kw in kws ==> kw == map[] || kw == map[n := x]
    ensures kws[0] == map[] || kws[0] == map[n := x]
    ensures forall kw :: kw in kws[1..] ==> kw == map[] || kw == map[n := x]
  {
    assert kws[0] in kws;
    forall kw | kw in kws[1..] ensures kw == map[] || kw == map[n := x] {
      var i :| 0 <= i < |kws| - 1 && kws[1..][i] == kw;
      assert kws[i + 1] in kws;
    }
  }

  /** Then, after the class default of `n` is set to `v`, the same holds
      with `v` as the default: a plain call answers `v`. */
  lemma FunctionAfterClassSet(w: World, c: ClassId, names: seq<string>, n: string, x: Value, v: Value, kws: seq<map<string, Value>>)
    requires ClassCallReady(w, c, names) && n in ParamsOfClass(w, c)
    requires Live(w.heap, x)
    requires Live(w.heap, v) && WriteError(ParamsOfClass(w, c)[n], w.heap, v, false).None? && !IsProvider(w.heap, v)
    requires Settled(ParamsOfClass(w, c)[n].(default := v))
    requires forall kw :: kw in kws ==> kw == map[] || kw == map[n := x]
    ensures SetClass(w, c, n, v).Ok?
    ensures var w4 := SetClass(w, c, n, v).value;
      && ParamsOfClass(w4, c) == ParamsOfClass(w, c)[n := ParamsOfClass(w, c)[n].(default := v)]
      && ClassCallsAnswer(ParamsOfClass(w4, c), w4, c, names, kws)
  {
    ClassSetStep(w, c, names, n, v);
    var w4 := SetClass(w, c, n, v).value;
    FunctionOverridesOnce(w4, c, names, n, x, kws);
  }

  /** One call on a ready instance, with at most one keyword `n`: it
      answers what the instance holds, and leaves the instance ready and
      holding the same values, in a heap that still holds `x` as it was. */
  lemma InstanceCallStep(w: World, r: Ref, names: seq<string>, n: string, kwargs: map<string, Value>, x: Value)
    requires InstanceCallReady(w, r, names) && n in ParamsOfInstance(w, r)
    requires kwargs == map[] || kwargs == map[n := x]
    requires Live(w.heap, x)
    ensures CallInstance(w, r, names, kwargs).Ok?
    ensures var out := CallInstance(w, r, names, kwargs).value;
      && InstanceAnswers(w, r, names, kwargs, out)
      && InstanceCallReady(out.w, r, names) && ParamsOfInstance(out.w, r) == ParamsOfInstance(w, r)
      && (forall i :: 0 <= i < |names| ==> Current(out.w, r, names[i]) == Current(w, r, names[i]))
      && Live(out.w.heap, x) && IsProvider(out.w.heap, x) == IsProvider(w.heap, x)
      && WriteError(ParamsOfInstance(w, r)[n], out.w.heap, x, true) == WriteError(ParamsOfInstance(w, r)[n], w.heap, x, true)
  {
    InstanceCallValues(w, r, names, kwargs);
    var out := CallInstance(w, r, names, kwargs).value;
    KeepsAdmits(ParamsOfInstance(w, r)[n], w.heap, out.w.heap, r, x);
  }

  /** `test_parameterized_function_instance`: in any run of calls on the
      instance, each with or without the keyword `n`, every call answers
      what the instance held at the start except where its own keyword
      overrides. */
  lemma {:induction false} InstanceOverridesOnce(w0: World, w: World, r: Ref, names: seq<string>, n: string, x: Value, kws: seq<map<string, Value>>)
    requires InstanceCallReady(w, r, names) && n in ParamsOfInstance(w, r) && Live(w.heap, x)
    requires WF(w0) && IsInstance(w0, r)
    requires forall i :: 0 <= i < |names| ==> names[i] in ParamsOfInstance(w0, r) && Current(w, r, names[i]) == Current(w0, r, names[i])
    requires forall kw :: kw in kws ==> kw == map[] || kw == map[n := x]
    ensures InstanceCallsAnswer(w0, w, r, names, kws)
    decreases |kws|
  {
    if |kws| > 0 {
      OnlyKeywordTail(kws, n, x);
      InstanceCallStep(w, r, names, n, kws[0], x);
      var out := CallInstance(w, r, names, kws[0]).value;
      InstanceOverridesOnce(w0, out.w, r, names, n, x, kws[1..]);
      InstanceCallsCons(w0, w, r, names, kws, out);
    }
  }

  /** Then, after `n` is set on the instance to `v`, the same holds with
      `v` as its value; the other names keep theirs. */
  lemma InstanceAfterSet(w: World, r: Ref, names: seq<string>, n: string, x: Value, v: Value, kws: seq<map<string, Value>>)
    requires InstanceCallReady(w, r, names) && n in ParamsOfInstance(w, r)
    requires Live(w.heap, x) && Live(w.heap, v) && !IsProvider(w.heap, v)
    requires WriteError(ParamsOfInstance(w, r)[n], w.heap, v, true).None?
    requires forall kw :: kw in kws ==> kw == map[] || kw == map[n := x]
    ensures SetInstance(w, r, n, v).Ok?
    ensures var w4 := SetInstance(w, r, n, v).value;
      && IsInstance(w4, r) && n in ParamsOfInstance(w4, r) && Current(w4, r, n) == v
      && (forall i :: 0 <= i < |names| && names[i] != n ==>
            names[i] in ParamsOfInstance(w4, r) && Current(w4, r, names[i]) == Current(w, r, names[i]))
      && InstanceCallsAnswer(w4, w4, r, names, kws)
  {
    var w4 := SetInstance(w, r, n, v).value;
    assert ParamsOfInstance(w4, r) == ParamsOfInstance(w, r);
    forall i | 0 <= i < |names| ensures !Resolves(w4, r, names[i]) {
      if names[i] != n {
        var u := Current(w, r, names[i]);
        assert u.VRef? && u.r in w.heap ==> (w4.heap[u.r].Provider? <==> w.heap[u.r].Provider?);
      }
    }
    assert w4.heap.Keys == w.heap.Keys;
    InstanceOverridesOnce(w4, w4, r, names, n, x, kws);
  }

  /** `test_outside_bounds`: assigning a number to a numeric parameter is
      checked against its bounds at once. */
  lemma NumberBoundsCheckedOnSet(w: World, r: Ref, n: string, x: real)
    requires WF(w) && IsInstance(w, r) && n in ParamsOfInstance(w, r)
    requires var s := ParamsOfInstance(w, r)[n]; s.kind == NumberKind && !s.readonly && !s.constant
    ensures SetInstance(w, r, n, VNum(x)) == Err(ValueError) <==> !InBounds(ParamsOfInstance(w, r)[n].bounds, x)
    ensures SetInstance(w, r, n, VNum(x)).Ok? ==>
      var w' := SetInstance(w, r, n, VNum(x)).value;
      Get(w', r, n) == Ok(Read(w', VNum(x)))
  {
  }

  /** `test_outside_bounds` on `MyTestPO1.y`, declared with
      `bounds=(-1,1)`: writing 10 raises `ValueError`, and a write is
      rejected exactly when the number lies outside [-1, 1]. */
  lemma OutsideClosedBounds(w: World, r: Ref, n: string, x: real)
    requires WF(w) && IsInstance(w, r) && n in ParamsOfInstance(w, r)
    requires var s := ParamsOfInstance(w, r)[n];
      s.kind == NumberKind && !s.readonly && !s.constant && s.bounds == Closed(-1.0, 1.0)
    ensures SetInstance(w, r, n, VNum(10.0)) == Err(ValueError)
    ensures SetInstance(w, r, n, VNum(x)) == Err(ValueError) <==> x < -1.0 || 1.0 < x
  {
    NumberBoundsCheckedOnSet(w, r, n, 10.0);
    NumberBoundsCheckedOnSet(w, r, n, x);
  }

  /** `test_outside_bounds_numbergen`: a provider is accepted by a numeric
      parameter whatever its bounds; the bounds apply to the value it
      produces, on the read. */
  lemma ProviderBoundsDeferred(w: World, r: Ref, n: string, p: Ref)
    requires WF(w) && IsInstance(w, r) && n in ParamsOfInstance(w, r)
    requires var s := ParamsOfInstance(w, r)[n]; s.kind == NumberKind && !s.readonly && !s.constant
    requires p in w.heap && w.heap[p].Provider?
    ensures SetInstance(w, r, n, VRef(p)).Ok?
    ensures var w' := SetInstance(w, r, n, VRef(p)).value;
      var b := ParamsOfInstance(w, r)[n].bounds;
      && (Get(w', r, n) == Err(ValueError) <==> !InBounds(b, Peek(w.heap[p])))
      && (InBounds(b, Peek(w.heap[p])) ==> Get(w', r, n).Ok? && Get(w', r, n).value.v == VNum(Peek(w.heap[p])))
  {
    var w' := SetInstance(w, r, n, VRef(p)).value;
    assert w'.heap[p] == w.heap[p];
    assert Resolves(w', r, n);
  }

  /** `test_handling_of_None`: `None` is rejected unless the parameter
      allows it, and a parameter declared with a `None` default allows it. */
  lemma NoneHandling(w: World, r: Ref, n: string)
    requires WF(w) && IsInstance(w, r) && n in ParamsOfInstance(w, r)
    requires var s := ParamsOfInstance(w, r)[n]; !s.readonly && !s.constant
    ensures SetInstance(w, r, n, VNone).Ok? <==> ParamsOfInstance(w, r)[n].allowNone
    ensures SetInstance(w, r, n, VNone).Err? ==> SetInstance(w, r, n, VNone) == Err(ValueError)
  {
  }

  /** The declaration half of `test_handling_of_None`: a class declaring
      `n` with a `None` default accepts `None` for it, and a new instance
      reads `None`. */
  lemma NoneDefault(w: World, parent: Option<ClassId>, n: string, s: ParamSpec, m: Made)
    requires WF(w) && (parent.Some? ==> parent.value in w.classes) && w.pools == []
    requires s.default == VNone && !s.readonly
    requires var reg := RegisterClass(w, parent, map[n := s], false);
      Built(reg.w, reg.id, map[], m)
    ensures var reg := RegisterClass(w, parent, map[n := s], false);
      && n in ParamsOfClass(reg.w, reg.id) && ParamsOfClass(reg.w, reg.id)[n].allowNone
      && WF(m.w) && IsInstance(m.w, m.obj)
      && Get(m.w, m.obj, n) == Ok(Read(m.w, VNone))
  {
    var reg := NoneDeclared(w, parent, n, s);
    var none: map<string, Value> := map[];
    ConstructedValue(reg.w, reg.id, none, m, n);
  }

  /** A class declaring `n` with a `None` default has `None` as the
      aggregated default of `n`, and allows it. */
  lemma NoneDeclared(w: World, parent: Option<ClassId>, n: string, s: ParamSpec) returns (reg: Registered)
    requires WF(w) && (parent.Some? ==> parent.value in w.classes)
    requires s.default == VNone && !s.readonly
    ensures reg == RegisterClass(w, parent, map[n := s], false)
    ensures WF(reg.w) && reg.id in reg.w.classes && reg.w.pools == w.pools
    ensures n in ParamsOfClass(reg.w, reg.id)
    ensures ParamsOfClass(reg.w, reg.id)[n].default == VNone && ParamsOfClass(reg.w, reg.id)[n].allowNone
  {
    reg := RegisterClass(w, parent, map[n := s], false);
    var specs := ParamsOfClass(reg.w, reg.id);
    if parent.Some? {
      assert specs[n] == Inherit(Normalize(s), n in InstantiatedNames(reg.w.classes, parent.value));
    }
  }

  /** `TestParamOverrides`: an override view answers the overridden name
      with the override, any other parameter with the instance's value,
      and an unknown name with `AttributeError`. */
  lemma OverrideView(w: World, c: ClassId, kwargs: map<string, Value>, n: string, o: Value, k: string, u: string, m: Made)
    requires WF(w) && c in w.classes && w.pools == []
    requires k in kwargs && k in ParamsOfClass(w, c) && k != n && !IsProvider(w.heap, kwargs[k]) && Live(w.heap, kwargs[k])
    requires u !in ParamsOfClass(w, c) && u != n
    requires Built(w, c, kwargs, m)
    ensures var view := ParamOverrides(m.obj, map[n := o]);
      && WF(m.w) && IsInstance(m.w, m.obj)
      && Get(m.w, m.obj, k) == Ok(Read(m.w, kwargs[k]))
      && Lookup(m.w, view, n) == Ok(Read(m.w, o))
      && Lookup(m.w, view, k) == Ok(Read(m.w, kwargs[k]))
      && Lookup(m.w, view, u) == Err(AttributeError)
  {
    ConstructedValue(w, c, kwargs, m, k);
    LiveGrows(w.heap, m.w.heap);
    var v := kwargs[k];
    assert v.VRef? ==> m.w.heap[v.r] == w.heap[v.r];
  }

  /** Keyword arguments valid in one heap stay valid in a heap that only grew. */
  lemma ArgsStayValid(h: Heap, h': Heap, specs: map<string, ParamSpec>, kwargs: map<string, Value>)
    requires Extends(h, h') && forall n :: n in kwargs ==> Live(h, kwargs[n])
    ensures forall n :: n in kwargs ==> Live(h', kwargs[n])
    ensures SomeInvalid(specs, h', kwargs) == SomeInvalid(specs, h, kwargs)
  {
    forall n | n in kwargs && n in specs ensures Admits(specs[n], h', kwargs[n]) == Admits(specs[n], h, kwargs[n]) {
      var v := kwargs[n];
      assert v.VRef? ==> h'[v.r] == h[v.r];
    }
  }

  /** The first construction of `c` in a scope whose pool has no entry
      for `n` holds a fresh copy and pools it. */
  lemma SharedFirst(w: World, c: ClassId, n: string, kw: map<string, Value>)
    requires WF(w) && c in w.classes && Pooling(w) && !Pooled(w, c, n)
    requires n in ParamsOfClass(w, c)
    requires var s := ParamsOfClass(w, c)[n]; s.instantiate && s.default.VRef?
    requires LiveArgs(w, kw) && kw.Keys <= ParamsOfClass(w, c).Keys && n !in kw
    requires !SomeReadonly(ParamsOfClass(w, c), kw) && !SomeInvalid(ParamsOfClass(w, c), w.heap, kw)
    ensures Construct(w, c, kw).Ok?
    ensures var m := Construct(w, c, kw).value;
      var q := Ref(w.next, Some(n));
      && WF(m.w) && m.w.classes == w.classes && Extends(w.heap, m.w.heap) && m.w.next > w.next
      && |m.w.pools| == |w.pools| && IsInstance(m.w, m.obj) && m.obj !in w.heap
      && Pooled(m.w, c, n) && TopPool(m.w)[PoolKey(c, n)] == VRef(q)
      && ParamsOfInstance(m.w, m.obj) == ParamsOfClass(w, c) && Current(m.w, m.obj, n) == VRef(q)
      && VRef(q) != ParamsOfClass(w, c)[n].default
  {
    var m := Construct(w, c, kw).value;
    ConstructedValue(w, c, kw, m, n);
    PooledAfter(w, c, m, n);
  }

  /** A later construction of `c` in the same scope holds the pooled
      object, and an earlier instance still holds it too. */
  lemma SharedSecond(w: World, c: ClassId, n: string, kw: map<string, Value>, r: Ref, q: Ref)
    requires WF(w) && c in w.classes && Pooled(w, c, n) && TopPool(w)[PoolKey(c, n)] == VRef(q)
    requires n in ParamsOfClass(w, c)
    requires var s := ParamsOfClass(w, c)[n]; s.instantiate && !IsDynamic(s.kind)
    requires LiveArgs(w, kw) && kw.Keys <= ParamsOfClass(w, c).Keys && n !in kw
    requires !SomeReadonly(ParamsOfClass(w, c), kw) && !SomeInvalid(ParamsOfClass(w, c), w.heap, kw)
    requires IsInstance(w, r) && ParamsOfInstance(w, r) == ParamsOfClass(w, c) && Current(w, r, n) == VRef(q)
    ensures Construct(w, c, kw).Ok?
    ensures var m := Construct(w, c, kw).value;
      && r != m.obj && WF(m.w) && m.w.classes == w.classes && m.w.next > w.next && |m.w.pools| == |w.pools|
      && Get(m.w, r, n) == Ok(Read(m.w, VRef(q)))
      && Get(m.w, m.obj, n) == Ok(Read(m.w, VRef(q)))
  {
    var m := Construct(w, c, kw).value;
    ConstructedValue(w, c, kw, m, n);
    assert m.w.heap[r] == w.heap[r];
  }

  /** Two constructions of `c` in a scope whose pool has no entry for `n`
      yet: both instances hold the one fresh copy the first made. */
  lemma SharedPair(w: World, c: ClassId, n: string, kw1: map<string, Value>, kw2: map<string, Value>)
    requires WF(w) && c in w.classes && Pooling(w) && !Pooled(w, c, n)
    requires n in ParamsOfClass(w, c)
    requires var s := ParamsOfClass(w, c)[n]; s.instantiate && s.default.VRef? && !IsDynamic(s.kind)
    requires LiveArgs(w, kw1) && kw1.Keys <= ParamsOfClass(w, c).Keys && n !in kw1
    requires !SomeReadonly(ParamsOfClass(w, c), kw1) && !SomeInvalid(ParamsOfClass(w, c), w.heap, kw1)
    requires LiveArgs(w, kw2) && kw2.Keys <= ParamsOfClass(w, c).Keys && n !in kw2
    requires !SomeReadonly(ParamsOfClass(w, c), kw2) && !SomeInvalid(ParamsOfClass(w, c), w.heap, kw2)
    ensures Construct(w, c, kw1).Ok?
    ensures var m1 := Construct(w, c, kw1).value;
      && LiveArgs(m1.w, kw2) && Construct(m1.w, c, kw2).Ok?
      && var m2 := Construct(m1.w, c, kw2).value;
      && var q := Ref(w.next, Some(n));
      && m1.obj != m2.obj && WF(m2.w) && |m2.w.pools| == |w.pools| && m2.w.classes == w.classes
      && m2.w.next > w.next
      && Get(m2.w, m1.obj, n) == Ok(Read(m2.w, VRef(q)))
      && Get(m2.w, m2.obj, n) == Ok(Read(m2.w, VRef(q)))
      && VRef(q) != ParamsOfClass(w, c)[n].default
  {
    SharedFirst(w, c, n, kw1);
    var m1 := Construct(w, c, kw1).value;
    ArgsStayValid(w.heap, m1.w.heap, ParamsOfClass(w, c), kw2);
    SharedSecond(m1.w, c, n, kw2, m1.obj, Ref(w.next, Some(n)));
  }

  /** Outside every scope a new instance gets a fresh copy of its own:
      an object the world did not have, which is not the class default
      and holds the default's contents. */
  lemma UnsharedCopy(w: World, c: ClassId, n: string)
    requires WF(w) && c in w.classes && w.pools == []
    requires n in ParamsOfClass(w, c)
    requires var s := ParamsOfClass(w, c)[n]; s.instantiate && s.default.VRef? && !IsDynamic(s.kind)
    ensures Construct(w, c, map[]).Ok?
    ensures var m := Construct(w, c, map[]).value;
      var q := Ref(w.next, Some(n));
      var d := ParamsOfClass(w, c)[n].default;
      && Get(m.w, m.obj, n) == Ok(Read(m.w, VRef(q)))
      && q !in w.heap && VRef(q) != d
      && WF(m.w) && m.w.pools == [] && m.w.classes == w.classes && m.w.next > w.next
      && d.r in w.heap && q in m.w.heap && m.w.heap[q] == w.heap[d.r]
  {
    var none: map<string, Value> := map[];
    var m := Construct(w, c, none).value;
    ConstructedValue(w, c, none, m, n);
  }

  /** Two constructions outside every scope: each instance holds a copy of
      its own, the two copies are distinct objects, and neither is the
      class default. */
  lemma UnsharedPair(w: World, c: ClassId, n: string)
    requires WF(w) && c in w.classes && w.pools == []
    requires n in ParamsOfClass(w, c)
    requires var s := ParamsOfClass(w, c)[n]; s.instantiate && s.default.VRef? && !IsDynamic(s.kind)
    ensures Construct(w, c, map[]).Ok?
    ensures var m1 := Construct(w, c, map[]).value;
      && WF(m1.w) && Construct(m1.w, c, map[]).Ok?
      && var m2 := Construct(m1.w, c, map[]).value;
      && var q1 := Ref(w.next, Some(n));
      && var q2 := Ref(m1.w.next, Some(n));
      && var d := ParamsOfClass(w, c)[n].default;
      && Get(m1.w, m1.obj, n) == Ok(Read(m1.w, VRef(q1)))
      && Get(m2.w, m2.obj, n) == Ok(Read(m2.w, VRef(q2)))
      && q1 != q2 && VRef(q1) != d && VRef(q2) != d
  {
    UnsharedCopy(w, c, n);
    var m1 := Construct(w, c, map[]).value;
    UnsharedCopy(m1.w, c, n);
  }

  /** `TestSharedParameters`: inside `shared_parameters`, two instances of
      one class, whatever else their keywords set, hold the identical
      object for an instantiated parameter, and it is not the class
      default itself; once the scope is left, a new instance gets a copy of
      its own again (`UnsharedCopy` applies to the world the scope leaves). */
  lemma SharedParameters(w: World, c: ClassId, n: string, kw1: map<string, Value>, kw2: map<string, Value>)
    requires WF(w) && c in w.classes && w.pools == []
    requires n in ParamsOfClass(w, c)
    requires var s := ParamsOfClass(w, c)[n]; s.instantiate && s.default.VRef? && !IsDynamic(s.kind)
    requires LiveArgs(w, kw1) && kw1.Keys <= ParamsOfClass(w, c).Keys && n !in kw1
    requires !SomeReadonly(ParamsOfClass(w, c), kw1) && !SomeInvalid(ParamsOfClass(w, c), w.heap, kw1)
    requires LiveArgs(w, kw2) && kw2.Keys <= ParamsOfClass(w, c).Keys && n !in kw2
    requires !SomeReadonly(ParamsOfClass(w, c), kw2) && !SomeInvalid(ParamsOfClass(w, c), w.heap, kw2)
    ensures var w1 := EnterShared(w);
      && WF(w1) && Construct(w1, c, kw1).Ok?
      && var m1 := Construct(w1, c, kw1).value;
      && LiveArgs(m1.w, kw2) && Construct(m1.w, c, kw2).Ok?
      && var m2 := Construct(m1.w, c, kw2).value;
      && var q := Ref(w.next, Some(n));
      && m1.obj != m2.obj
      && Get(m2.w, m1.obj, n) == Ok(Read(m2.w, VRef(q)))
      && Get(m2.w, m2.obj, n) == Ok(Read(m2.w, VRef(q)))
      && VRef(q) != ParamsOfClass(w, c)[n].default
      && var w3 := ExitShared(m2.w);
         WF(w3) && w3.pools == [] && w3.classes == w.classes && w3.next > w.next
  {
    var none: map<string, Value> := map[];
    var w1 := EnterShared(w);
    SharedPair(w1, c, n, kw1, kw2);
    var m1 := Construct(w1, c, kw1).value;
    var m2 := Construct(m1.w, c, kw2).value;
  }
}

=== FILE: classes.dfy ===
/** Parameterized classes and the aggregation of their declarations along
    the inheritance chain. */
module Classes {
  import opened Outcomes
  import opened Values
  import opened Specs

  type ClassId = nat

  /** One class: its parent, the parameters it declares itself, and its
      own `abstract` flag. */
  datatype ClassDecl = ClassDecl(parent: Option<ClassId>, own: map<string, ParamSpec>, isAbstract: bool)

  type Classes = map<ClassId, ClassDecl>

  /** Every parent is registered before its children (so has a smaller id)
      and every own declaration is normalized. */
  predicate Hierarchy(cs: Classes) {
    && (forall c :: c in cs && cs[c].parent.Some? ==> cs[c].parent.value in cs && cs[c].parent.value < c)
    && (forall c, n :: c in cs && n in cs[c].own ==> Normalized(cs[c].own[n]))
  }

  /** `a` is `c` or one of its ancestors. */
  predicate Descends(cs: Classes, c: ClassId, a: ClassId)
    requires Hierarchy(cs) && c in cs
    decreases c
  {
    c == a || (cs[c].parent.Some? && Descends(cs, cs[c].parent.value, a))
  }

  /** The names that `c` or one of its ancestors declares itself with
      `instantiate=True`. */
  function InstantiatedNames(cs: Classes, c: ClassId): set<string>
    requires Hierarchy(cs) && c in cs
    decreases c
  {
    var here := set n | n in cs[c].own && cs[c].own[n].instantiate;
    match cs[c].parent
    case None => here
    case Some(p) => here + InstantiatedNames(cs, p)
  }

  /** How a subclass's own declaration takes over an inherited one: it
      replaces it wholesale, except that `instantiate` is switched on when
      some ancestor declares `instantiate=True` (`sticky`), unless the
      redeclaration is read-only. */
  function Inherit(own: ParamSpec, sticky: bool): ParamSpec {
    if sticky && !own.readonly then own.(instantiate := true) else own
  }

  /** The aggregated name->spec mapping of class `c`, built root to leaf. */
  function Aggregate(cs: Classes, c: ClassId): map<string, ParamSpec>
    requires Hierarchy(cs) && c in cs
    decreases c
  {
    var own := cs[c].own;
    match cs[c].parent
    case None => own
    case Some(p) =>
      var up := Aggregate(cs, p);
      var sticky := InstantiatedNames(cs, p);
      map n | n in up.Keys + own.Keys :: if n in own then Inherit(own[n], n in sticky) else up[n]
  }

  /** The nearest class, from `c` upwards, that declares `n` itself. */
  function Declarer(cs: Classes, c: ClassId, n: string): (d: Option<ClassId>)
    requires Hierarchy(cs) && c in cs
    ensures d.Some? ==> d.value in cs && n in cs[d.value].own && Descends(cs, c, d.value)
    decreases c
  {
    if n in cs[c].own then Some(c)
    else match cs[c].parent
      case None => None
      case Some(p) => Declarer(cs, p, n)
  }

  lemma {:induction false} DescendsIn(cs: Classes, c: ClassId, a: ClassId)
    requires Hierarchy(cs) && c in cs && Descends(cs, c, a)
    ensures a in cs && a <= c
    decreases c
  {
    if c != a {
      DescendsIn(cs, cs[c].parent.value, a);
    }
  }

  /** A name is a parameter of `c` exactly when `c` or an ancestor declares it. */
  lemma {:induction false} AggregateKeys(cs: Classes, c: ClassId, n: string)
    requires Hierarchy(cs) && c in cs
    ensures n in Aggregate(cs, c) <==> exists a :: Descends(cs, c, a) && a in cs && n in cs[a].own
    ensures n in Aggregate(cs, c) <==> Declarer(cs, c, n).Some?
    decreases c
  {
    if cs[c].parent.Some? {
      var p := cs[c].parent.value;
      AggregateKeys(cs, p, n);
      if n in Aggregate(cs, p) && n !in cs[c].own {
        var a :| Descends(cs, p, a) && a in cs && n in cs[a].own;
        assert Descends(cs, c, a);
      }
      if exists a :: Descends(cs, c, a) && a in cs && n in cs[a].own {
        var a :| Descends(cs, c, a) && a in cs && n in cs[a].own;
        if a != c {
          assert Descends(cs, p, a);
        }
      }
    } else {
      if exists a :: Descends(cs, c, a) && a in cs && n in cs[a].own {
        var a :| Descends(cs, c, a) && a in cs && n in cs[a].own;
        assert a == c;
      }
    }
  }

  /** Aggregated specs keep the declaration-time normal form. */
  lemma {:induction false} AggregateNormalized(cs: Classes, c: ClassId, n: string)
    requires Hierarchy(cs) && c in cs && n in Aggregate(cs, c)
    ensures Normalized(Aggregate(cs, c)[n])
    decreases c
  {
    if cs[c].parent.Some? && n !in cs[c].own {
      AggregateNormalized(cs, cs[c].parent.value, n);
    }
  }

  /** The aggregated spec is the nearest declaration, field for field,
      apart from the sticky `instantiate` flag. */
  lemma {:induction false} AggregateNearest(cs: Classes, c: ClassId, n: string)
    requires Hierarchy(cs) && c in cs && n in Aggregate(cs, c)
    ensures Declarer(cs, c, n).Some?
    ensures var d := Declarer(cs, c, n).value;
      Aggregate(cs, c)[n].(instantiate := false) == cs[d].own[n].(instantiate := false)
      && (cs[d].own[n].instantiate ==> Aggregate(cs, c)[n].instantiate)
    decreases c
  {
    AggregateKeys(cs, c, n);
    if n !in cs[c].own {
      var p := cs[c].parent.value;
      AggregateKeys(cs, p, n);
      AggregateNearest(cs, p, n);
    }
  }

  /** `n` is in `InstantiatedNames` exactly when `c` or an ancestor
      declares it with `instantiate=True`: this direction. */
  lemma {:induction false} AncestorInstantiates(cs: Classes, c: ClassId, a: ClassId, n: string)
    requires Hierarchy(cs) && c in cs && Descends(cs, c, a) && a in cs
    requires n in cs[a].own && cs[a].own[n].instantiate
    ensures n in InstantiatedNames(cs, c)
    decreases c
  {
    if c != a {
      AncestorInstantiates(cs, cs[c].parent.value, a, n);
    }
  }

  /** ... and the other. */
  lemma {:induction false} InstantiatedNamesOrigin(cs: Classes, c: ClassId, n: string)
    requires Hierarchy(cs) && c in cs && n in InstantiatedNames(cs, c)
    ensures exists a :: Descends(cs, c, a) && a in cs && n in cs[a].own && cs[a].own[n].instantiate
    decreases c
  {
    if n in cs[c].own && cs[c].own[n].instantiate {
      assert Descends(cs, c, c);
    } else {
      var p := cs[c].parent.value;
      InstantiatedNamesOrigin(cs, p, n);
      var a :| Descends(cs, p, a) && a in cs && n in cs[a].own && cs[a].own[n].instantiate;
      assert Descends(cs, c, a);
    }
  }

  /** The nearest declaration of `n`, from `c` upwards, is not read-only. */
  predicate NearestWritable(cs: Classes, c: ClassId, n: string)
    requires Hierarchy(cs) && c in cs
  {
    var d := Declarer(cs, c, n);
    d.Some? ==> !cs[d.value].own[n].readonly
  }

  /** `instantiate=True` declared by an ancestor `a` holds in every
      subclass, even one that redeclares the name with `instantiate=False`
      and even below a read-only redeclaration, as long as the class's own
      nearest declaration is not read-only. */
  lemma {:induction false} InstantiateSticky(cs: Classes, c: ClassId, a: ClassId, n: string)
    requires Hierarchy(cs) && c in cs && Descends(cs, c, a) && a in cs
    requires n in cs[a].own && cs[a].own[n].instantiate
    requires NearestWritable(cs, c, n)
    ensures n in Aggregate(cs, c) && Aggregate(cs, c)[n].instantiate
    decreases c
  {
    AggregateKeys(cs, c, n);
    var p := cs[c].parent;
    if n in cs[c].own {
      if c != a {
        AncestorInstantiates(cs, p.value, a, n);
      }
    } else {
      InstantiateSticky(cs, p.value, a, n);
    }
  }

  /** Conversely, an aggregated `instantiate=True` was declared by the
      class or an ancestor, and the class's nearest declaration is not
      read-only. */
  lemma {:induction false} InstantiateOrigin(cs: Classes, c: ClassId, n: string)
    requires Hierarchy(cs) && c in cs && n in Aggregate(cs, c) && Aggregate(cs, c)[n].instantiate
    ensures NearestWritable(cs, c, n)
    ensures exists a :: Descends(cs, c, a) && a in cs && n in cs[a].own && cs[a].own[n].instantiate
    decreases c
  {
    if n in cs[c].own {
      if cs[c].own[n].instantiate {
        assert Descends(cs, c, c);
      } else {
        var p := cs[c].parent.value;
        InstantiatedNamesOrigin(cs, p, n);
        var a :| Descends(cs, p, a) && a in cs && n in cs[a].own && cs[a].own[n].instantiate;
        assert Descends(cs, c, a);
      }
    } else {
      var p := cs[c].parent.value;
      InstantiateOrigin(cs, p, n);
      var a :| Descends(cs, p, a) && a in cs && n in cs[a].own && cs[a].own[n].instantiate;
      assert Descends(cs, c, a);
    }
  }

  /** An aggregated spec already carries every sticky `instantiate`, so
      redeclaring it unchanged in a subclass gives it back as it was. */
  lemma InheritAggregated(cs: Classes, p: ClassId, n: string)
    requires Hierarchy(cs) && p in cs && n in Aggregate(cs, p)
    ensures Inherit(Aggregate(cs, p)[n], n in InstantiatedNames(cs, p)) == Aggregate(cs, p)[n]
  {
    if n in InstantiatedNames(cs, p) && !Aggregate(cs, p)[n].readonly {
      InstantiatedNamesOrigin(cs, p, n);
      var a :| Descends(cs, p, a) && a in cs && n in cs[a].own && cs[a].own[n].instantiate;
      AggregateNearest(cs, p, n);
      InstantiateSticky(cs, p, a, n);
    }
  }

  /** A subclass sees every parameter of each of its ancestors, and every
      parameter it declares itself. */
  lemma {:induction false} AggregateInherited(cs: Classes, c: ClassId, a: ClassId)
    requires Hierarchy(cs) && c in cs && a in cs && Descends(cs, c, a)
    ensures Aggregate(cs, a).Keys <= Aggregate(cs, c).Keys
    ensures cs[c].own.Keys <= Aggregate(cs, c).Keys
    decreases c
  {
    if c != a {
      AggregateInherited(cs, cs[c].parent.value, a);
    }
  }

  /** The aggregation of `c` depends only on `c` and its ancestors: two
      hierarchies that agree on every id up to `c` aggregate it alike. */
  lemma {:induction false} AggregateAgree(cs: Classes, cs': Classes, c: ClassId)
    requires Hierarchy(cs) && Hierarchy(cs') && c in cs
    requires forall b :: b in cs && b <= c ==> b in cs' && cs'[b] == cs[b]
    ensures c in cs' && Aggregate(cs', c) == Aggregate(cs, c)
    ensures InstantiatedNames(cs', c) == InstantiatedNames(cs, c)
    decreases c
  {
    if cs[c].parent.Some? {
      AggregateAgree(cs, cs', cs[c].parent.value);
    }
  }
}

=== FILE: outcomes.dfy ===
/** Failure-compatible wrappers shared by the whole model. */
module Outcomes {

  /** The exception kinds the attribute protocol raises. */
  datatype Error =
    | TypeError        // write to a constant or read-only parameter
    | ValueError       // value rejected by the parameter's validation
    | AttributeError   // name that is not a parameter
    | KeyError         // registry lookup of an unknown name
    | IndexError       // list item assignment out of range

  datatype Option<+T> = None | Some(value: T)

  datatype Result<+T> = Ok(value: T) | Err(error: Error) {

    predicate IsFailure() {
      Err?
    }

    function PropagateFailure<U>(): Result<U>
      requires Err?
    {
      Err(error)
    }

    function Extract(): T
      requires Ok?
    {
      value
    }
  }
}

=== FILE: overrides.dfy ===
/** Override views (`ParamOverrides`) and the call semantics of a
    parameterized function built on them. */
module Overrides {
  import opened Outcomes
  import opened Values
  import opened Specs
  import opened Classes
  import opened Worlds
  import opened Attributes

  /** An instance together with call-time overrides; never written back. */
  datatype ParamOverrides = ParamOverrides(obj: Ref, overrides: map<string, Value>)

  /** `overrides[key]`: the override when one is given, else the instance's
      own (resolved) value, else `AttributeError`. */
  function Lookup(w: World, view: ParamOverrides, key: string): (res: Result<Read>)
    requires WF(w) && IsInstance(w, view.obj)
    ensures key in view.overrides ==> res == Ok(Read(w, view.overrides[key]))
    ensures key !in view.overrides ==> res == Get(w, view.obj, key)
    ensures res == Err(AttributeError) <==> key !in view.overrides && key !in ParamsOfInstance(w, view.obj)
    ensures res.Ok? ==> WF(res.value.w) && ReadEffect(w, res.value.w, view.obj)
  {
    if key in view.overrides then Ok(Read(w, view.overrides[key]))
    else Get(w, view.obj, key)
  }

  /** A name a view can answer without resolving a provider or failing. */
  predicate Plain(w: World, view: ParamOverrides, key: string)
    requires WF(w) && IsInstance(w, view.obj)
  {
    key in view.overrides || (key in ParamsOfInstance(w, view.obj) && !Resolves(w, view.obj, key))
  }

  /** Reads keep what a view answers from: current values and which
      references are providers. */
  lemma ReadEffectKeepsPlain(w: World, w': World, view: ParamOverrides, key: string)
    requires WF(w) && WF(w') && IsInstance(w, view.obj) && ReadEffect(w, w', view.obj)
    ensures ParamsOfInstance(w', view.obj) == ParamsOfInstance(w, view.obj)
    ensures key in ParamsOfInstance(w, view.obj) ==> Current(w', view.obj, key) == Current(w, view.obj, key)
    ensures Plain(w', view, key) <==> Plain(w, view, key)
  {
    if key in ParamsOfInstance(w, view.obj) {
      var v := Current(w, view.obj, key);
      assert IsProvider(w'.heap, v) <==> IsProvider(w.heap, v) by {
        if v.VRef? && v.r in w.heap && v.r != view.obj && !w.heap[v.r].Provider? {
          assert w'.heap[v.r] == w.heap[v.r];
        }
      }
    }
  }

  datatype Called = Called(w: World, values: seq<Value>)

  /** The body of a parameterized function: read each of `names` through
      the view, in order. */
  function ReadAll(w: World, view: ParamOverrides, names: seq<string>): (res: Result<Called>)
    requires WF(w) && IsInstance(w, view.obj)
    ensures res.Ok? ==> WF(res.value.w) && ReadEffect(w, res.value.w, view.obj) && |res.value.values| == |names|
    ensures res.Ok? ==> forall i :: 0 <= i < |names| && names[i] in view.overrides ==> res.value.values[i] == view.overrides[names[i]]
    ensures res.Ok? ==> forall i :: 0 <= i < |names| && names[i] !in view.overrides && Plain(w, view, names[i]) ==>
      res.value.values[i] == Current(w, view.obj, names[i])
    decreases |names|
  {
    if |names| == 0 then Ok(Called(w, []))
    else
      var first :- Lookup(w, view, names[0]);
      var rest :- ReadAll(first.w, view, names[1..]);
      ReadAllStep(w, view, names, first, rest);
      Ok(Called(rest.w, [first.v] + rest.values))
  }

  /** The reads succeed when every name answers plainly, and they fail
      with `AttributeError` only for a name that is neither overridden nor
      a parameter. */
  lemma {:induction false} ReadAllPlain(w: World, view: ParamOverrides, names: seq<string>)
    requires WF(w) && IsInstance(w, view.obj)
    ensures (forall i :: 0 <= i < |names| ==> Plain(w, view, names[i])) ==> ReadAll(w, view, names).Ok?
    ensures ReadAll(w, view, names) == Err(AttributeError) ==> exists i :: 0 <= i < |names| && !Plain(w, view, names[i])
    decreases |names|
  {
    if |names| > 0 {
      var l := Lookup(w, view, names[0]);
      if l.Ok? {
        PlainTail(w, l.value.w, view, names);
        ReadAllPlain(l.value.w, view, names[1..]);
        if ReadAll(w, view, names) == Err(AttributeError) {
          var j :| 0 <= j < |names| - 1 && !Plain(l.value.w, view, names[1..][j]);
          assert !Plain(w, view, names[j + 1]);
        }
      } else {
        assert !Plain(w, view, names[0]);
      }
    }
  }

  /** A read leaves the rest of the names answering plainly exactly
      when they did before it. */
  lemma PlainTail(w: World, w': World, view: ParamOverrides, names: seq<string>)
    requires WF(w) && WF(w') && IsInstance(w, view.obj) && ReadEffect(w, w', view.obj) && |names| > 0
    ensures IsInstance(w', view.obj)
    ensures forall i :: 0 <= i < |names| - 1 ==> (Plain(w', view, names[1..][i]) <==> Plain(w, view, names[i + 1]))
  {
    forall i | 0 <= i < |names| - 1 ensures Plain(w', view, names[1..][i]) <==> Plain(w, view, names[i + 1]) {
      ReadEffectKeepsPlain(w, w', view, names[i + 1]);
    }
  }

  lemma ReadAllStep(w: World, view: ParamOverrides, names: seq<string>, first: Read, rest: Called)
    requires WF(w) && IsInstance(w, view.obj) && |names| > 0
    requires Lookup(w, view, names[0]) == Ok(first)
    requires WF(first.w) && ReadEffect(w, first.w, view.obj)
    requires WF(rest.w) && ReadEffect(first.w, rest.w, view.obj) && |rest.values| == |names| - 1
    requires forall i :: 0 <= i < |names| - 1 && names[i + 1] in view.overrides ==> rest.values[i] == view.overrides[names[i + 1]]
    requires forall i :: 0 <= i < |names| - 1 && names[i + 1] !in view.overrides && Plain(first.w, view, names[i + 1]) ==>
      rest.values[i] == Current(first.w, view.obj, names[i + 1])
    ensures ReadEffect(w, rest.w, view.obj)
    ensures var vs := [first.v] + rest.values;
      && (forall i :: 0 <= i < |names| && names[i] in view.overrides ==> vs[i] == view.overrides[names[i]])
      && (forall i :: 0 <= i < |names| && names[i] !in view.overrides && Plain(w, view, names[i]) ==>
            vs[i] == Current(w, view.obj, names[i]))
  {
    ReadEffectTrans(w, first.w, rest.w, view.obj);
    ConsOverrides(view, names, first.v, rest.values);
    ConsPlain(w, first.w, view, names, first.v, rest.values);
  }

  lemma ConsOverrides(view: ParamOverrides, names: seq<string>, v: Value, vs: seq<Value>)
    requires |names| > 0 && |vs| == |names| - 1
    requires names[0] in view.overrides ==> v == view.overrides[names[0]]
    requires forall i :: 0 <= i < |names| - 1 && names[i + 1] in view.overrides ==> vs[i] == view.overrides[names[i + 1]]
    ensures forall i :: 0 <= i < |names| && names[i] in view.overrides ==> ([v] + vs)[i] == view.overrides[names[i]]
  {
    forall i | 0 <= i < |names| && names[i] in view.overrides
      ensures ([v] + vs)[i] == view.overrides[names[i]]
    {
      if i > 0 {
        assert ([v] + vs)[i] == vs[i - 1];
      }
    }
  }

  lemma ConsPlain(w: World, w1: World, view: ParamOverrides, names: seq<string>, v: Value, vs: seq<Value>)
    requires WF(w) && WF(w1) && IsInstance(w, view.obj) && ReadEffect(w, w1, view.obj)
    requires |names| > 0 && |vs| == |names| - 1
    requires names[0] !in view.overrides && Plain(w, view, names[0]) ==> v == Current(w, view.obj, names[0])
    requires forall i :: 0 <= i < |names| - 1 && names[i + 1] !in view.overrides && Plain(w1, view, names[i + 1]) ==>
      vs[i] == Current(w1, view.obj, names[i + 1])
    ensures forall i :: 0 <= i < |names| && names[i] !in view.overrides && Plain(w, view, names[i]) ==>
      ([v] + vs)[i] == Current(w, view.obj, names[i])
  {
    forall i | 0 <= i < |names| && names[i] !in view.overrides && Plain(w, view, names[i])
      ensures ([v] + vs)[i] == Current(w, view.obj, names[i])
    {
      ReadEffectKeepsPlain(w, w1, view, names[i]);
      if i > 0 {
        assert ([v] + vs)[i] == vs[i - 1];
      }
    }
  }


  /** What a call on `r` leaves of the objects that existed before it:
      all of them, providers still providers, and every object other than
      `r` that is not a provider exactly as it was. */
  predicate Keeps(h: Heap, h': Heap, r: Ref) {
    forall q :: q in h ==> q in h' && (h'[q].Provider? <==> h[q].Provider?) && (q != r && !h[q].Provider? ==> h'[q] == h[q])
  }

  lemma ReadEffectKeeps(w: World, w': World, r: Ref)
    requires IsInstance(w, r) && ReadEffect(w, w', r)
    ensures Keeps(w.heap, w'.heap, r)
  {
  }

  /** Calling a parameterized function on its singleton instance: call-time
      keywords override for this call only. */
  function CallInstance(w: World, r: Ref, names: seq<string>, kwargs: map<string, Value>): (res: Result<Called>)
    requires WF(w) && IsInstance(w, r)
    ensures res.Ok? ==> WF(res.value.w) && res.value.w.classes == w.classes && res.value.w.pools == w.pools
    ensures res.Ok? ==> IsInstance(res.value.w, r) && res.value.w.heap[r].vals == w.heap[r].vals
    ensures res.Ok? ==> Keeps(w.heap, res.value.w.heap, r)
    ensures res.Ok? ==> |res.value.values| == |names|
    ensures res.Ok? ==> forall i :: 0 <= i < |names| && names[i] in kwargs ==> res.value.values[i] == kwargs[names[i]]
    ensures res.Ok? ==> forall i :: 0 <= i < |names| && names[i] !in kwargs && Plain(w, ParamOverrides(r, kwargs), names[i]) ==>
      res.value.values[i] == Current(w, r, names[i])
    ensures (forall i :: 0 <= i < |names| ==> Plain(w, ParamOverrides(r, kwargs), names[i])) ==> res.Ok?
  {
    var res := ReadAll(w, ParamOverrides(r, kwargs), names);
    ReadAllPlain(w, ParamOverrides(r, kwargs), names);
    if res.Ok? then
      ReadEffectKeeps(w, res.value.w, r);
      res
    else res
  }

  /** Calling a parameterized function on its class: a fresh instance is
      built with the class defaults and read through a view that holds the
      call's keywords; the keywords are never validated or stored, the
      class defaults are never written, and no object that existed before
      the call changes except by a provider moving on. */
  function CallClass(w: World, c: ClassId, names: seq<string>, kwargs: map<string, Value>): (res: Result<Called>)
    requires WF(w) && c in w.classes
    ensures res.Ok? ==> WF(res.value.w) && res.value.w.classes == w.classes && |res.value.w.pools| == |w.pools|
    ensures res.Ok? ==> Keeps(w.heap, res.value.w.heap, Ref(w.next, None))
    ensures res.Ok? ==> |res.value.values| == |names|
    ensures res.Ok? ==> forall i :: 0 <= i < |names| && names[i] in kwargs ==> res.value.values[i] == kwargs[names[i]]
  {
    var made :- Construct(w, c, map[]);
    var out :- CallInstance(made.w, made.obj, names, kwargs);
    KeepsAfterExtends(w.heap, made.w.heap, out.w.heap, made.obj);
    Ok(out)
  }

  /** A call on an object the old heap did not have keeps the old heap. */
  lemma KeepsAfterExtends(h0: Heap, h1: Heap, h2: Heap, r: Ref)
    requires Extends(h0, h1) && r !in h0 && Keeps(h1, h2, r)
    ensures Keeps(h0, h2, r)
  {
  }

  /** A parameter whose default is never resolved on a read: its kind
      does not resolve providers, or its default is not an object. */
  predicate Settled(s: ParamSpec) {
    !IsDynamic(s.kind) || !s.default.VRef?
  }

  /** A settled parameter of a new instance answers without resolving. */
  lemma BuiltPlain(w: World, c: ClassId, made: Made, kwargs: map<string, Value>, n: string)
    requires WF(w) && c in w.classes && Built(w, c, map[], made) && w.pools == []
    requires n in ParamsOfClass(w, c) && Settled(ParamsOfClass(w, c)[n])
    ensures IsInstance(made.w, made.obj) && Plain(made.w, ParamOverrides(made.obj, kwargs), n)
  {
    ConstructedValue(w, c, map[], made, n);
  }

  /** What a call made of a new instance answers for a settled name the
      keywords leave out, seen in any heap the call left behind. */
  lemma BuiltAnswer(w: World, c: ClassId, made: Made, n: string, h: Heap)
    requires WF(w) && c in w.classes && Built(w, c, map[], made) && w.pools == []
    requires n in ParamsOfClass(w, c) && Settled(ParamsOfClass(w, c)[n])
    requires !IsProvider(w.heap, ParamsOfClass(w, c)[n].default)
    requires Keeps(made.w.heap, h, made.obj)
    ensures IsInstance(made.w, made.obj) && n in ParamsOfInstance(made.w, made.obj)
    ensures var s := ParamsOfClass(w, c)[n];
      var v := Current(made.w, made.obj, n);
      && SameContents(h, v, s.default)
      && (!s.instantiate ==> v == s.default)
  {
    var s := ParamsOfClass(w, c)[n];
    ConstructedValue(w, c, map[], made, n);
    if s.default.VRef? {
      var d := s.default.r;
      assert made.w.heap[d] == w.heap[d];
      if s.instantiate {
        var q := Ref(w.next, Some(n));
        assert h[q] == made.w.heap[q];
      }
    }
  }

  /** The answers of a call on a class whose declarations are `specs`:
      each keyword as given, each other name the class default (itself
      when not instantiated, an equal copy when it is), seen in the call's
      heap. */
  ghost predicate Answers(specs: map<string, ParamSpec>, names: seq<string>, kwargs: map<string, Value>, out: Called) {
    && |out.values| == |names|
    && (forall i :: 0 <= i < |names| && names[i] in kwargs ==> out.values[i] == kwargs[names[i]])
    && (forall i :: 0 <= i < |names| && names[i] !in kwargs ==>
          && names[i] in specs
          && SameContents(out.w.heap, out.values[i], specs[names[i]].default)
          && (!specs[names[i]].instantiate ==> out.values[i] == specs[names[i]].default))
  }

  /** Making the calls `kws` on class `c` one after another, from `w`:
      each succeeds and answers its own keywords and, for the other names,
      the defaults in `specs`. */
  ghost predicate ClassCallsAnswer(specs: map<string, ParamSpec>, w: World, c: ClassId, names: seq<string>, kws: seq<map<string, Value>>)
    decreases |kws|
  {
    |kws| == 0 || (
      && WF(w) && c in w.classes
      && CallClass(w, c, names, kws[0]).Ok?
      && Answers(specs, names, kws[0], CallClass(w, c, names, kws[0]).value)
      && ClassCallsAnswer(specs, CallClass(w, c, names, kws[0]).value.w, c, names, kws[1..]))
  }

  /** The first call answers, and so do the rest after it. */
  lemma ClassCallsCons(specs: map<string, ParamSpec>, w: World, c: ClassId, names: seq<string>, kws: seq<map<string, Value>>, out: Called)
    requires |kws| > 0 && WF(w) && c in w.classes
    requires CallClass(w, c, names, kws[0]) == Ok(out) && Answers(specs, names, kws[0], out)
    requires ClassCallsAnswer(specs, out.w, c, names, kws[1..])
    ensures ClassCallsAnswer(specs, w, c, names, kws)
  {
  }

  /** A class whose named parameters all answer a call without resolving. */
  predicate ClassCallReady(w: World, c: ClassId, names: seq<string>) {
    && WF(w) && c in w.classes && w.pools == []
    && forall i :: 0 <= i < |names| ==>
         && names[i] in ParamsOfClass(w, c) && Settled(ParamsOfClass(w, c)[names[i]])
         && !IsProvider(w.heap, ParamsOfClass(w, c)[names[i]].default)
  }

  /** A value a later heap still accepts as it did: same object kind. */
  lemma KeepsAdmits(s: ParamSpec, h: Heap, h': Heap, r: Ref, v: Value)
    requires Keeps(h, h', r) && Live(h, v) && (r in h ==> (h'[r].ListObj? <==> h[r].ListObj?))
    ensures Live(h', v) && IsProvider(h', v) == IsProvider(h, v)
    ensures Admits(s, h', v) == Admits(s, h, v)
  {
  }

  /** A later world with the same classes, outside any sharing scope,
      whose heap keeps every old object but a fresh one, leaves a ready
      class ready, with the same declarations. */
  lemma ReadyKept(w: World, c: ClassId, names: seq<string>, w': World, r: Ref)
    requires ClassCallReady(w, c, names) && r !in w.heap
    requires WF(w') && w'.classes == w.classes && w'.pools == [] && Keeps(w.heap, w'.heap, r)
    ensures ClassCallReady(w', c, names) && ParamsOfClass(w', c) == ParamsOfClass(w, c)
  {
    forall i | 0 <= i < |names| ensures !IsProvider(w'.heap, ParamsOfClass(w, c)[names[i]].default) {
      AggregateLive(w, c, names[i]);
    }
  }

  /** Outside a sharing scope, a call on the class answers each name the
      keywords leave out with the class default: the default itself when
      the parameter is not instantiated, an equal copy when it is. */
  lemma CallClassValues(w: World, c: ClassId, names: seq<string>, kwargs: map<string, Value>)
    requires WF(w) && c in w.classes && w.pools == []
    requires forall i :: 0 <= i < |names| && names[i] !in kwargs ==>
      names[i] in ParamsOfClass(w, c) && Settled(ParamsOfClass(w, c)[names[i]])
      && !IsProvider(w.heap, ParamsOfClass(w, c)[names[i]].default)
    ensures CallClass(w, c, names, kwargs).Ok?
    ensures Answers(ParamsOfClass(w, c), names, kwargs, CallClass(w, c, names, kwargs).value)
  {
    var made := Construct(w, c, map[]).value;
    var view := ParamOverrides(made.obj, kwargs);
    forall i | 0 <= i < |names| ensures Plain(made.w, view, names[i]) {
      if names[i] !in kwargs {
        BuiltPlain(w, c, made, kwargs, names[i]);
      }
    }
    var out := CallInstance(made.w, made.obj, names, kwargs).value;
    assert CallClass(w, c, names, kwargs) == Ok(out);
    forall i | 0 <= i < |names| && names[i] !in kwargs
      ensures var s := ParamsOfClass(w, c)[names[i]];
        && SameContents(out.w.heap, out.values[i], s.default)
        && (!s.instantiate ==> out.values[i] == s.default)
    {
      BuiltPlain(w, c, made, kwargs, names[i]);
      BuiltAnswer(w, c, made, names[i], out.w.heap);
    }
  }

  /** The answers of a call on instance `r` of world `w`: each keyword as
      given, each other name the value the instance holds. */
  ghost predicate InstanceAnswers(w: World, r: Ref, names: seq<string>, kwargs: map<string, Value>, out: Called)
    requires WF(w) && IsInstance(w, r)
  {
    && |out.values| == |names|
    && (forall i :: 0 <= i < |names| && names[i] in kwargs ==> out.values[i] == kwargs[names[i]])
    && (forall i :: 0 <= i < |names| && names[i] !in kwargs ==>
          names[i] in ParamsOfInstance(w, r) && out.values[i] == Current(w, r, names[i]))
  }

  /** Making the calls `kws` on instance `r` one after another, from `w`:
      each succeeds and answers its own keywords and, for the other names,
      the values `r` holds in `w0`. */
  ghost predicate InstanceCallsAnswer(w0: World, w: World, r: Ref, names: seq<string>, kws: seq<map<string, Value>>)
    requires WF(w0) && IsInstance(w0, r)
    decreases |kws|
  {
    |kws| == 0 || (
      && WF(w) && IsInstance(w, r)
      && CallInstance(w, r, names, kws[0]).Ok?
      && InstanceAnswers(w0, r, names, kws[0], CallInstance(w, r, names, kws[0]).value)
      && InstanceCallsAnswer(w0, CallInstance(w, r, names, kws[0]).value.w, r, names, kws[1..]))
  }

  /** The first call answers, and so do the rest after it. */
  lemma InstanceCallsCons(w0: World, w: World, r: Ref, names: seq<string>, kws: seq<map<string, Value>>, out: Called)
    requires WF(w0) && IsInstance(w0, r)
    requires |kws| > 0 && WF(w) && IsInstance(w, r)
    requires CallInstance(w, r, names, kws[0]) == Ok(out) && InstanceAnswers(w0, r, names, kws[0], out)
    requires InstanceCallsAnswer(w0, out.w, r, names, kws[1..])
    ensures InstanceCallsAnswer(w0, w, r, names, kws)
  {
  }

  /** An instance whose named parameters all answer without resolving. */
  predicate InstanceCallReady(w: World, r: Ref, names: seq<string>) {
    && WF(w) && IsInstance(w, r)
    && forall i :: 0 <= i < |names| ==> names[i] in ParamsOfInstance(w, r) && !Resolves(w, r, names[i])
  }

  /** A call on a ready instance answers what it holds and leaves it ready,
      holding the same values. */
  lemma InstanceCallValues(w: World, r: Ref, names: seq<string>, kwargs: map<string, Value>)
    requires InstanceCallReady(w, r, names)
    ensures CallInstance(w, r, names, kwargs).Ok?
    ensures var out := CallInstance(w, r, names, kwargs).value;
      && InstanceAnswers(w, r, names, kwargs, out)
      && InstanceCallReady(out.w, r, names) && ParamsOfInstance(out.w, r) == ParamsOfInstance(w, r)
      && (forall i :: 0 <= i < |names| ==> Current(out.w, r, names[i]) == Current(w, r, names[i]))
  {
    var view := ParamOverrides(r, kwargs);
    forall i | 0 <= i < |names| ensures Plain(w, view, names[i]) {
    }
    var out := CallInstance(w, r, names, kwargs).value;
    var read := ReadAll(w, view, names).value;
    assert out == read;
    forall i | 0 <= i < |names|
      ensures names[i] in ParamsOfInstance(out.w, r) && !Resolves(out.w, r, names[i])
      ensures Current(out.w, r, names[i]) == Current(w, r, names[i])
    {
      ReadEffectKeepsPlain(w, out.w, ParamOverrides(r, map[]), names[i]);
    }
  }
}

=== FILE: snapshots.dfy ===
/** The per-instance saved-state stack: `state_push` and `state_pop`. */
module Snapshots {
  import opened Values
  import opened Worlds
  import opened Attributes

  /** The state of `r` that `state_push` captures. */
  function Capture(o: Obj): Snapshot
    requires o.Inst?
  {
    Snapshot(o.vals, o.last)
  }

  /** Saves the instance's values (provider references as they are, not
      resolved) and the last values its providers produced. */
  function StatePush(w: World, r: Ref): (w': World)
    requires WF(w) && IsInstance(w, r)
    ensures WF(w') && IsInstance(w', r) && w'.heap.Keys == w.heap.Keys
    ensures w'.classes == w.classes && w'.registry == w.registry && w'.pools == w.pools && w'.next == w.next
    ensures forall q :: q in w.heap && q != r ==> w'.heap[q] == w.heap[q]
    ensures w'.heap[r].cls == w.heap[r].cls && w'.heap[r].vals == w.heap[r].vals && w'.heap[r].last == w.heap[r].last
    ensures |w'.heap[r].saved| == |w.heap[r].saved| + 1
    ensures w'.heap[r].saved[..|w.heap[r].saved|] == w.heap[r].saved
    ensures w'.heap[r].saved[|w.heap[r].saved|] == Capture(w.heap[r])
  {
    var o := w.heap[r];
    var o' := o.(saved := o.saved + [Capture(o)]);
    assert LiveObj(w.heap, o) && LiveObj(w.heap, o') by {
      forall j, n | 0 <= j < |o'.saved| && n in o'.saved[j].vals ensures Live(w.heap, o'.saved[j].vals[n]) {
        if j < |o.saved| {
          assert o'.saved[j] == o.saved[j];
        }
      }
    }
    WFUpdate(w, r, o');
    w.(heap := w.heap[r := o'])
  }

  /** Restores the most recently saved state and removes it from the
      stack; providers keep their position, only the references and the
      last produced values come back. */
  function StatePop(w: World, r: Ref): (w': World)
    requires WF(w) && IsInstance(w, r) && |w.heap[r].saved| > 0
    ensures WF(w') && IsInstance(w', r) && w'.heap.Keys == w.heap.Keys
    ensures w'.classes == w.classes && w'.registry == w.registry && w'.pools == w.pools && w'.next == w.next
    ensures forall q :: q in w.heap && q != r ==> w'.heap[q] == w.heap[q]
    ensures var o := w.heap[r]; var top := o.saved[|o.saved| - 1];
      w'.heap[r] == Inst(o.cls, top.vals, top.last, o.saved[..|o.saved| - 1])
  {
    var o := w.heap[r];
    var top := o.saved[|o.saved| - 1];
    var o' := Inst(o.cls, top.vals, top.last, o.saved[..|o.saved| - 1]);
    assert LiveObj(w.heap, o) && LiveObj(w.heap, o') by {
      forall j, n | 0 <= j < |o'.saved| && n in o'.saved[j].vals ensures Live(w.heap, o'.saved[j].vals[n]) {
        assert o'.saved[j] == o.saved[j];
      }
    }
    WFUpdate(w, r, o');
    w.(heap := w.heap[r := o'])
  }

  /** Push, then anything that leaves the saved stack alone, then pop:
      the instance is exactly as before the push, and so is every value
      `inspect_value` reports (given the same class declarations). */
  lemma PushPopRoundTrip(w: World, r: Ref, w2: World)
    requires WF(w) && IsInstance(w, r) && WF(w2) && IsInstance(w2, r)
    requires w2.heap[r].cls == w.heap[r].cls
    requires w2.heap[r].saved == StatePush(w, r).heap[r].saved
    ensures |w2.heap[r].saved| > 0
    ensures StatePop(w2, r).heap[r] == w.heap[r]
    ensures w2.classes == w.classes ==>
      forall n :: InspectValue(StatePop(w2, r), r, n) == InspectValue(w, r, n)
  {
    var s := w.heap[r].saved;
    assert w2.heap[r].saved == s + [Capture(w.heap[r])];
    assert (s + [Capture(w.heap[r])])[..|s|] == s;
  }

  /** Nested pairs unwind in order: push A, push B, pop restores B's
      state, a further pop restores A's. */
  lemma NestedRoundTrip(w0: World, r: Ref, w2: World, w4: World, w6: World)
    requires WF(w0) && IsInstance(w0, r)
    requires WF(w2) && IsInstance(w2, r) && w2.heap[r].cls == w0.heap[r].cls
    requires w2.heap[r].saved == StatePush(w0, r).heap[r].saved
    requires WF(w4) && IsInstance(w4, r) && w4.heap[r].cls == w2.heap[r].cls
    requires w4.heap[r].saved == StatePush(w2, r).heap[r].saved
    ensures |w4.heap[r].saved| > 0
    ensures StatePop(w4, r).heap[r] == w2.heap[r]
    ensures var w5 := StatePop(w4, r);
      |w5.heap[r].saved| > 0 && StatePop(w5, r).heap[r] == w0.heap[r]
  {
    PushPopRoundTrip(w2, r, w4);
    var w5 := StatePop(w4, r);
    PushPopRoundTrip(w0, r, w5);
  }
}

=== FILE: specs.dfy ===
/** Parameter declarations: metadata of one declared attribute and the
    validation it applies to assigned values. */
module Specs {
  import opened Outcomes
  import opened Values

  /** The parameter classes the tests declare: `Parameter`, `Dynamic`,
      `Number`, `String` and `List`. */
  datatype Kind = AnyKind | DynamicKind | NumberKind | StringKind | ListKind

  /** `Dynamic` and its subclass `Number` resolve value providers on read. */
  predicate IsDynamic(k: Kind) {
    k == DynamicKind || k == NumberKind
  }

  datatype ParamSpec = ParamSpec(
    kind: Kind,
    default: Value,
    constant: bool,
    readonly: bool,
    instantiate: bool,
    allowNone: bool,
    bounds: Option<Bounds>)

  /** The shape every registered declaration has: read-only implies
      constant and never instantiated, and a `None` default admits `None`. */
  predicate Normalized(s: ParamSpec) {
    && (s.readonly ==> s.constant && !s.instantiate)
    && (s.default == VNone ==> s.allowNone)
  }

  /** The declaration-time adjustment of the flags as written. */
  function Normalize(s: ParamSpec): (t: ParamSpec)
    ensures Normalized(t)
    ensures t.kind == s.kind && t.default == s.default && t.bounds == s.bounds
    ensures t.readonly == s.readonly
    ensures t.constant <==> s.constant || s.readonly
    ensures t.instantiate <==> s.instantiate && !s.readonly
    ensures t.allowNone <==> s.allowNone || s.default == VNone
  {
    s.(constant := s.constant || s.readonly,
       instantiate := s.instantiate && !s.readonly,
       allowNone := s.allowNone || s.default == VNone)
  }

  lemma NormalizeIdempotent(s: ParamSpec)
    ensures Normalize(s) == s <==> Normalized(s)
    ensures Normalize(Normalize(s)) == Normalize(s)
  {
  }

  /** Whether the parameter accepts `v` as a value; a provider is admitted
      by a numeric parameter whatever it will produce. */
  predicate Admits(s: ParamSpec, h: Heap, v: Value) {
    if v == VNone then s.allowNone
    else match s.kind
      case AnyKind => true
      case DynamicKind => true
      case NumberKind => (v.VNum? && InBounds(s.bounds, v.x)) || IsProvider(h, v)
      case StringKind => v.VStr?
      case ListKind => v.VRef? && v.r in h && h[v.r].ListObj?
  }

  /** The error a write of `v` raises, or `None` when the write is allowed.
      `onInstance` says whether the target is a constructed instance (where
      constant parameters are frozen) or the class. */
  function WriteError(s: ParamSpec, h: Heap, v: Value, onInstance: bool): (e: Option<Error>)
    ensures e == Some(TypeError) <==> s.readonly || (onInstance && s.constant)
    ensures e == Some(ValueError) <==> !s.readonly && !(onInstance && s.constant) && !Admits(s, h, v)
    ensures e.None? <==> !s.readonly && !(onInstance && s.constant) && Admits(s, h, v)
  {
    if s.readonly || (onInstance && s.constant) then Some(TypeError)
    else if !Admits(s, h, v) then Some(ValueError)
    else None
  }
  /** A class write is held to every check an instance write is, except
      `constant`: whatever an instance accepts its class accepts too, and
      the two answers differ exactly for a constant, writable parameter. */
  lemma ClassWriteDropsConstant(s: ParamSpec, h: Heap, v: Value)
    ensures WriteError(s, h, v, true).None? ==> WriteError(s, h, v, false).None?
    ensures WriteError(s, h, v, true) != WriteError(s, h, v, false) <==> s.constant && !s.readonly
    ensures s.readonly ==> WriteError(s, h, v, true) == WriteError(s, h, v, false) == Some(TypeError)
  {
  }

}

=== FILE: values.dfy ===
/** Values, heap objects and object identity. */
module Values {
  import opened Outcomes

  /** Identity of a heap object. `serial` is the allocation step that
      created it; copies made while constructing the instance of step k
      live at `Ref(k, Some(name))`, one per instantiated parameter. */
  datatype Ref = Ref(serial: nat, slot: Option<string>)

  /** The script of a value provider: the values it produces, cyclically. */
  type Script = s: seq<real> | |s| > 0 witness [0.0]

  /** A Python value as far as the parameter protocol sees it: `None`, a
      number, a string, or a reference to a mutable heap object. */
  datatype Value = VNone | VNum(x: real) | VStr(s: string) | VRef(r: Ref)

  /** What `state_push` saves for one instance. */
  datatype Snapshot = Snapshot(vals: map<string, Value>, last: map<string, real>)

  datatype Obj =
    | ListObj(items: seq<Value>)
      /** A Parameterized instance: its class, the values it owns (copied
          or explicitly set), the last value each provider-backed
          parameter produced, and its saved-state stack. */
    | Inst(cls: nat, vals: map<string, Value>, last: map<string, real>, saved: seq<Snapshot>)
      /** A value provider: stateful, produces `script[pos % |script|]` next. */
    | Provider(script: Script, pos: nat)
      /** An object without parameter behaviour, such as `object()`. */
    | Plain
      /** The cached parameter mapping of one class. */
    | RegistryObj(cls: nat)

  type Heap = map<Ref, Obj>

  /** The value a provider produces on its next resolution. */
  function Peek(p: Obj): real
    requires p.Provider?
  {
    p.script[p.pos % |p.script|]
  }

  /** A provider after one resolution. */
  function Advance(p: Obj): (q: Obj)
    requires p.Provider?
    ensures q.Provider? && q.script == p.script && q.pos == p.pos + 1
  {
    p.(pos := p.pos + 1)
  }

  /** A value never refers to an object that does not exist. */
  predicate Live(h: Heap, v: Value) {
    v.VRef? ==> v.r in h
  }

  /** An instance's values and saved values are live. */
  predicate LiveObj(h: Heap, o: Obj) {
    o.Inst? ==>
      && (forall n :: n in o.vals ==> Live(h, o.vals[n]))
      && (forall j, n :: 0 <= j < |o.saved| && n in o.saved[j].vals ==> Live(h, o.saved[j].vals[n]))
  }

  predicate IsProvider(h: Heap, v: Value) {
    v.VRef? && v.r in h && h[v.r].Provider?
  }

  /** Equal as the tests compare lists of numbers: identical, or two
      references whose objects have the same contents, one level deep. */
  predicate SameContents(h: Heap, a: Value, b: Value) {
    a == b || (a.VRef? && b.VRef? && a.r in h && b.r in h && h[a.r] == h[b.r])
  }

  /** Numeric bounds: each side optional, each inclusive or exclusive. */
  datatype Bounds = Bounds(lo: Option<real>, hi: Option<real>, loIncl: bool, hiIncl: bool)

  /** The pure bounds check; no bounds admits every number. */
  predicate InBounds(b: Option<Bounds>, x: real) {
    match b
    case None => true
    case Some(bd) =>
      && (bd.lo.Some? ==> (if bd.loIncl then bd.lo.value <= x else bd.lo.value < x))
      && (bd.hi.Some? ==> (if bd.hiIncl then x <= bd.hi.value else x < bd.hi.value))
  }

  /** The closed interval [lo, hi], as `bounds=(lo, hi)` declares it. */
  function Closed(lo: real, hi: real): (b: Option<Bounds>)
    ensures forall x :: InBounds(b, x) <==> lo <= x <= hi
  {
    Some(Bounds(Some(lo), Some(hi), true, true))
  }
}

=== FILE: worlds.dfy ===
/** The global state: registered classes, the object heap, the cached
    parameter mappings and the stack of open shared-parameter scopes. */
module Worlds {
  import opened Outcomes
  import opened Values
  import opened Specs
  import opened Classes

  /** A pooled default is shared by instances of one class for one name. */
  datatype PoolKey = PoolKey(cls: ClassId, name: string)

  type Pool = map<PoolKey, Value>

  datatype World = World(
    classes: Classes,
    heap: Heap,
    next: nat,                        // the next allocation step
    registry: map<ClassId, Ref>,      // cached parameter mapping per class
    pools: seq<Pool>)                 // open shared-parameter scopes, innermost last

  predicate WF(w: World) {
    && Hierarchy(w.classes)
    && (forall c :: c in w.classes ==> c < w.next)
    && (forall c, n :: c in w.classes && n in w.classes[c].own ==> Live(w.heap, w.classes[c].own[n].default))
    && (forall c :: c in w.registry ==> c in w.classes && w.registry[c] in w.heap)
    && HeapOk(w.heap, w.next, w.classes)
    && PoolsLive(w.heap, w.pools)
  }

  /** Every object was allocated before `next`, refers only to live
      objects, and every instance belongs to a registered class. */
  predicate HeapOk(h: Heap, next: nat, cs: Classes) {
    forall r :: r in h ==> r.serial < next && LiveObj(h, h[r]) && (h[r].Inst? ==> h[r].cls in cs)
  }

  predicate PoolsLive(h: Heap, pools: seq<Pool>) {
    forall i, key :: 0 <= i < |pools| && key in pools[i] ==> Live(h, pools[i][key])
  }

  /** Every aggregated default is live. */
  lemma AggregateLive(w: World, c: ClassId, n: string)
    requires WF(w) && c in w.classes && n in Aggregate(w.classes, c)
    ensures Live(w.heap, Aggregate(w.classes, c)[n].default)
  {
    AggregateNearest(w.classes, c, n);
  }

  /** A world whose heap only grew by well-formed objects stays well formed. */
  lemma WFExtend(w: World, w': World)
    requires WF(w)
    requires w'.classes == w.classes && w'.registry == w.registry && w'.next >= w.next
    requires Extends(w.heap, w'.heap)
    requires forall r :: r in w'.heap && r !in w.heap ==>
      r.serial < w'.next && LiveObj(w'.heap, w'.heap[r]) && (w'.heap[r].Inst? ==> w'.heap[r].cls in w.classes)
    requires PoolsLive(w'.heap, w'.pools)
    ensures WF(w')
  {
    LiveGrows(w.heap, w'.heap);
    forall r | r in w'.heap
      ensures r.serial < w'.next && LiveObj(w'.heap, w'.heap[r]) && (w'.heap[r].Inst? ==> w'.heap[r].cls in w'.classes)
    {
      if r in w.heap {
        assert LiveObj(w.heap, w.heap[r]);
      }
    }
  }

  /** Replacing one object by a well-formed one keeps the world well formed. */
  lemma WFUpdate(w: World, q: Ref, o: Obj)
    requires WF(w) && q in w.heap && LiveObj(w.heap, o) && (o.Inst? ==> o.cls in w.classes)
    ensures WF(w.(heap := w.heap[q := o]))
  {
    var h := w.heap[q := o];
    LiveGrows(w.heap, h);
    forall r | r in h
      ensures r.serial < w.next && LiveObj(h, h[r]) && (h[r].Inst? ==> h[r].cls in w.classes)
    {
      if r != q {
        assert LiveObj(w.heap, w.heap[r]);
      }
    }
  }

  /** Nothing in a well-formed heap carries the next serial yet. */
  lemma NextIsFresh(w: World)
    requires WF(w)
    ensures forall slot :: Ref(w.next, slot) !in w.heap
  {
  }

  /** Liveness only depends on which objects exist, so a growing heap keeps it. */
  lemma LiveGrows(h: Heap, h': Heap)
    requires Extends(h, h') || h.Keys <= h'.Keys
    ensures forall v :: Live(h, v) ==> Live(h', v)
    ensures forall o :: LiveObj(h, o) ==> LiveObj(h', o)
  {
  }

  predicate IsInstance(w: World, r: Ref) {
    r in w.heap && w.heap[r].Inst?
  }

  /** The heap only grew: every old object is still there, unchanged. */
  predicate Extends(h: Heap, h': Heap) {
    forall r :: r in h ==> r in h' && h'[r] == h[r]
  }

  function ParamsOfClass(w: World, c: ClassId): map<string, ParamSpec>
    requires WF(w) && c in w.classes
  {
    Aggregate(w.classes, c)
  }

  function ParamsOfInstance(w: World, r: Ref): map<string, ParamSpec>
    requires WF(w) && IsInstance(w, r)
  {
    Aggregate(w.classes, w.heap[r].cls)
  }

  /** The value an instance holds for `n` without resolving providers:
      its own copy or assignment, else the shared class default. */
  function Current(w: World, r: Ref, n: string): Value
    requires WF(w) && IsInstance(w, r) && n in ParamsOfInstance(w, r)
  {
    if n in w.heap[r].vals then w.heap[r].vals[n] else ParamsOfInstance(w, r)[n].default
  }

  datatype Registered = Registered(w: World, id: ClassId)

  /** Defines a class: its own declarations are normalized, the new class
      gets a fresh id and nothing already registered changes. */
  function RegisterClass(w: World, parent: Option<ClassId>, own: map<string, ParamSpec>, isAbstract: bool): (res: Registered)
    requires WF(w) && (parent.Some? ==> parent.value in w.classes)
    requires forall n :: n in own ==> Live(w.heap, own[n].default)
    ensures WF(res.w) && res.id !in w.classes && res.id in res.w.classes
    ensures res.w.heap == w.heap && res.w.pools == w.pools && res.w.registry == w.registry
    ensures res.w.classes.Keys == w.classes.Keys + {res.id}
    ensures forall c :: c in w.classes ==> res.w.classes[c] == w.classes[c]
    ensures res.w.classes[res.id].parent == parent && res.w.classes[res.id].isAbstract == isAbstract
    ensures res.w.classes[res.id].own.Keys == own.Keys
    ensures forall n :: n in own ==> res.w.classes[res.id].own[n] == Normalize(own[n])
    ensures forall c :: c in w.classes ==> Aggregate(res.w.classes, c) == Aggregate(w.classes, c)
  {
    var k := w.next;
    var d := ClassDecl(parent, map n | n in own :: Normalize(own[n]), isAbstract);
    var cs := w.classes[k := d];
    assert Hierarchy(cs);
    forall c | c in w.classes
      ensures Aggregate(cs, c) == Aggregate(w.classes, c)
    {
      AggregateAgree(w.classes, cs, c);
    }
    Registered(w.(classes := cs, next := k + 1), k)
  }

  /** The `abstract` flag of a class is its own declaration, never inherited. */
  function IsAbstract(w: World, c: ClassId): bool
    requires WF(w) && c in w.classes
  {
    w.classes[c].isAbstract
  }

  datatype Made = Made(w: World, obj: Ref)

  /** Allocates a new object under a fresh identity. */
  function Alloc(w: World, o: Obj): (res: Made)
    requires WF(w) && LiveObj(w.heap, o) && (o.Inst? ==> o.cls in w.classes) && (o.RegistryObj? ==> o.cls in w.classes)
    ensures WF(res.w) && res.obj !in w.heap && res.w.heap == w.heap[res.obj := o]
    ensures res.w.classes == w.classes && res.w.registry == w.registry && res.w.pools == w.pools
  {
    var r := Ref(w.next, None);
    WFExtend(w, w.(heap := w.heap[r := o], next := w.next + 1));
    Made(w.(heap := w.heap[r := o], next := w.next + 1), r)
  }

  datatype View = RegistryView(id: Ref, specs: map<string, ParamSpec>)
  datatype Looked = Looked(w: World, view: View)

  /** `params()`: the aggregated mapping of a class, allocated on the first
      call and afterwards returned as the identical cached object. */
  function Params(w: World, c: ClassId): (res: Looked)
    requires WF(w) && c in w.classes
    ensures WF(res.w) && res.w.classes == w.classes && res.w.pools == w.pools && Extends(w.heap, res.w.heap)
    ensures c in res.w.registry && res.view.id == res.w.registry[c]
    ensures res.view.specs == Aggregate(w.classes, c)
    ensures c in w.registry ==> res.w == w
    ensures c !in w.registry ==> res.view.id !in w.heap
  {
    if c in w.registry then Looked(w, RegistryView(w.registry[c], Aggregate(w.classes, c)))
    else
      var m := Alloc(w, RegistryObj(c));
      Looked(m.w.(registry := m.w.registry[c := m.obj]), RegistryView(m.obj, Aggregate(w.classes, c)))
  }

  /** `params()` asked of an instance answers with its class's mapping. */
  function ParamsOf(w: World, r: Ref): (res: Looked)
    requires WF(w) && IsInstance(w, r)
    ensures res.view.specs == ParamsOfInstance(w, r)
    ensures res == Params(w, w.heap[r].cls)
  {
    Params(w, w.heap[r].cls)
  }

  /** `params(name)`: one aggregated spec, `KeyError` for an unknown name. */
  function ParamNamed(w: World, c: ClassId, n: string): (res: Result<ParamSpec>)
    requires WF(w) && c in w.classes
    ensures res.Ok? <==> n in Aggregate(w.classes, c)
    ensures res.Ok? ==> res.value == Aggregate(w.classes, c)[n]
    ensures res.Err? ==> res.error == KeyError
  {
    var specs := Params(w, c).view.specs;
    if n in specs then Ok(specs[n]) else Err(KeyError)
  }

  /** Repeated lookups return the identical object, with the same contents,
      and leave the world as the first lookup left it. */
  lemma ParamsCached(w: World, c: ClassId)
    requires WF(w) && c in w.classes
    ensures var first := Params(w, c);
      Params(first.w, c) == first
  {
  }

  /** Enters a `shared_parameters` scope: a new, empty pool shadows any
      enclosing one. */
  function EnterShared(w: World): (w': World)
    ensures w'.pools == w.pools + [map[]]
    ensures w'.classes == w.classes && w'.heap == w.heap && w'.registry == w.registry && w'.next == w.next
    ensures WF(w) ==> WF(w')
  {
    w.(pools := w.pools + [map[]])
  }

  /** Leaves the innermost scope, discarding its pool; the enclosing pool
      is active again as it was. */
  function ExitShared(w: World): (w': World)
    requires |w.pools| > 0
    ensures |w'.pools| == |w.pools| - 1 && w'.pools == w.pools[..|w.pools| - 1]
    ensures w'.classes == w.classes && w'.heap == w.heap && w'.registry == w.registry && w'.next == w.next
    ensures WF(w) ==> WF(w')
  {
    w.(pools := w.pools[..|w.pools| - 1])
  }

  lemma EnterExit(w: World)
    ensures ExitShared(EnterShared(w)) == w
  {
    assert (w.pools + [map[]])[..|w.pools|] == w.pools;
  }
}
